=== FILE: README.md ===
# Project membership and access policy, modelled in Dafny

This project models the decision logic of a NestJS/Prisma project-management
service. The service has three parts:

- two access predicates that gate protected operations (`PermissionsService`);
- the lifecycle of projects, memberships and tasks (`ProjectsService`,
  `ProjectUsersService`, `TasksService`);
- the page query every listing accepts (`PaginationQueryDto`).

The database becomes one immutable value, `Database.Store`. It holds:

- the user, project, task and state tables, as sequences. The user, project
  and task tables are in ascending primary-key order. A `findMany` with
  `skip`/`take` and no `orderBy` pages rows in that order;
- the membership relation, as a set of `(userId, projectId)` pairs;
- the column default for `stateId`;
- the next values of the project and task id sequences.

Every service method becomes a pure function:

- a read returns `Result<value, Error>`;
- a write returns `Result<(Store, value), Error>`, where the store is the one
  after the write.

A failed call returns no store, so a failure never changes anything. The two
access predicates return a plain `bool` and also never change the store.

`Database.Valid` states what the database guarantees in every state:

- primary keys are unique;
- user, project and task ids strictly increase along their tables, so the
  listings page by ascending id;
- every id is below its sequence's next value;
- every stored foreign key resolves: a project's manager and state, a task's
  project, assignee and state, and both ends of a membership pair.

The column default `defaultStateId` is not a stored reference, so `Valid`
does not constrain it. A creation whose default names no catalog entry fails
with "Invalid relation", as the code's `P2003` handler reports it.

Every write the model defines, including the corrected ones under Findings,
is proved to preserve `Valid`.

Modules, in dependency order:

- `Wrappers`: `Option` and `Result`.
- `Text`: ASCII lower-casing and substring search. This is the `contains` /
  `mode: 'insensitive'` filter that state lookup uses.
- `Tables`: generic keyed tables. These are point lookup, filtered selection,
  delete-by-key and replace-by-key, with their key and uniqueness lemmas.
- `Pagination`: the query, its validator constraints and the skip/take slice.
- `Database`: the entities, the store, `Valid`, and the first-match state
  resolution.
- `Permissions`, `Projects`, `ProjectUsers`, `Tasks`: one module per service.

Each error carries the message the code throws. When a check is unreachable,
the code's earlier check decides the message. For example,
`projectsService.findOne` already throws "Project not found" for a missing
project. So the later `if (!project)` branches never run: those in
project-users.service.ts at lines 31-33, 83-85 and 131-133, whose message
"Project not Found" never appears, and the one in tasks.service.ts at lines
24-26, whose "Project not found" is the same text `findOne` throws.
The same goes for `createTask`'s "User not found": `ProjectUsers.FindOne` has
already reported "User not found in project".

## Model

| member | source | states |
|---|---|---|
| Pagination.DefaultIsValid | nestjs/src/dtos/pagination.query.dto.ts:8-13 | The defaults (page 1, size 10) pass the validator, start at offset 0 and take 10 rows |
| Pagination.ValidQueryBounds | nestjs/src/dtos/pagination.query.dto.ts:6-12 | A validated query takes a positive number of rows from a non-negative offset |
| Pagination.Page | nestjs/src/projects/projects.service.ts:76-78 | The slice has at most `pageSize` rows; it is empty past the end, a full page when enough rows remain, and otherwise the rest; row i of the page is row `skip + i` of the input |
| Pagination.FirstPageIsPrefix | nestjs/src/dtos/pagination.query.dto.ts:7-8 | Page 1 is the first `pageSize` rows (or all of them) |
| Pagination.NextPageIsAdjacent | nestjs/src/projects/projects.service.ts:76-78 | Page n+1 is valid, starts exactly where page n stops, and the two pages together are one contiguous slice |
| Pagination.PagesAreDisjoint | nestjs/src/projects/projects.service.ts:76-78 | Two different page numbers of the same size never cover the same row offset |
| Text.ContainsIffOccurs | nestjs/src/projects/projects.service.ts:146-153 | The substring test holds exactly when the needle occurs at some position of the haystack |
| Text.QueryCaseIrrelevant | nestjs/src/projects/projects.service.ts:148-151 | Under case-insensitive matching, lower-casing the query never changes whether it matches |
| Text.EmptyQueryMatchesAll | nestjs/src/projects/projects.service.ts:146-153 | The empty query matches every state name |
| Database.ResolveState | nestjs/src/projects/projects.service.ts:146-157 | No state is found exactly when no catalog name contains the query case-insensitively; a found state is the first catalog entry that matches |
| Database.ResolveStateIgnoresQueryCase | nestjs/src/tasks/tasks.service.ts:175-182 | The resolved state depends only on the lower-case form of the query |
| Permissions.IsOwnerOrAdmin | nestjs/src/permissions/permissions.service.ts:8-22 | An absent actor is refused; an admin is admitted even for a missing project; a non-admin is refused for a missing project and admitted only as the project's manager |
| Permissions.IsParticipantOrOwnerOrAdmin | nestjs/src/permissions/permissions.service.ts:24-46 | Whoever passes the ownership check passes; an absent actor is refused; anyone else passes exactly when they have a membership pair for the project |
| Permissions.OwnershipGuardMatchesGrant | nestjs/src/permissions/permissions.service.ts:8-22 | With unique project ids, the ownership check holds exactly when a separate one-place access policy ranks the actor owner or admin |
| Permissions.ParticipantGuardMatchesGrant | nestjs/src/permissions/permissions.service.ts:24-46 | With unique project ids, the participant check holds exactly when that policy ranks the actor participant or higher |
| Permissions.AdminPassesBothGuards | nestjs/src/permissions/permissions.service.ts:11 | An admin passes both checks, whether or not the project exists |
| Permissions.OutsiderPassesNoGuard | nestjs/src/permissions/permissions.service.ts:19-45 | A non-admin who neither manages the project nor has a membership pair for it passes neither check |
| Projects.CreateProject | nestjs/src/projects/projects.service.ts:16-71 | A missing manager fails with "Manager not found." before anything else; then a failed user count gives "Some users do not exist."; then a default state missing from the catalog gives "Invalid relation"; otherwise the call succeeds and appends one project under the next sequence id with the given fields, default state and creation time, and leaves the memberships unchanged |
| Projects.ListedUsersCheck | nestjs/src/projects/projects.service.ts:26-36 | With unique user ids, the count comparison accepts the list exactly when every listed id is an existing user and no id repeats |
| Projects.CreateProjectMemberCheck | nestjs/src/projects/projects.service.ts:23-68 | With the manager present, creation succeeds exactly when every listed id exists, none repeats, and the default state is in the catalog |
| Projects.CreateProjectPreservesValid | nestjs/src/projects/projects.service.ts:38-62 | A successful creation keeps the store consistent, and the new project's id was not in use |
| Projects.CreateProjectGrantsNoMembership | nestjs/src/projects/projects.service.ts:38-43 | As written, after a successful creation no user at all has a membership pair with the new project, whatever `userIds` listed |
| Projects.CreateProjectWithMembers | nestjs/src/projects/projects.service.ts:16-71 | Corrected creation: same failures as the code, and on success the same project plus one membership pair per listed user |
| Projects.CreateProjectWithMembersGrantsMembership | nestjs/src/projects/projects.service.ts:26-43 | After the corrected creation, a user participates in the new project exactly when the request listed them, and no earlier membership is lost |
| Projects.CreateProjectWithMembersPreservesValid | nestjs/src/projects/projects.service.ts:26-62 | The corrected creation keeps the store consistent: every new membership pair names an existing user and the new project |
| Projects.FindAll | nestjs/src/projects/projects.service.ts:73-109 | The total is the number of projects; the page has at most `pageSize` entries, entry i is project `skip + i`; the page is empty past the end and otherwise holds exactly `pageSize` projects or the rest, whichever is fewer |
| Projects.FindAllInIdOrder | nestjs/src/projects/projects.service.ts:80-101 | On a store whose tables are in id order, the page lists projects by strictly ascending id |
| Projects.FindOne | nestjs/src/projects/projects.service.ts:111-140 | Succeeds exactly when a project with that id exists, returning a stored project with that id; otherwise "Project not found" |
| Projects.UpdateStateOfProject | nestjs/src/projects/projects.service.ts:142-196 | No matching state gives "State not found" before the project is looked up; a missing project gives "Project not found"; when a state matches and the project exists, the call succeeds; the project's `stateId` becomes the first matching state and no other row or table changes |
| Projects.UpdateStateOfProjectPreservesValid | nestjs/src/projects/projects.service.ts:158-186 | A state change keeps the store consistent |
| Projects.UpdateDateOfModify | nestjs/src/projects/projects.service.ts:198-215 | Fails with "Project not found" exactly when the project is missing; otherwise only that project's `dateOfModified` changes, to `now` |
| Projects.UpdateDateOfModifyPreservesValid | nestjs/src/projects/projects.service.ts:198-207 | Stamping keeps the store consistent |
| Projects.StoredStatesAreListed | nestjs/src/projects/projects.service.ts:217-221 | In a consistent store, every project's and every task's state is an entry that `findAllStates` lists |
| ProjectUsers.ProjectMembersAreParticipants | nestjs/src/project-users/project-users.service.ts:36-43 | The member query returns a user exactly when the user exists and has a membership pair with the project |
| ProjectUsers.FindAll | nestjs/src/project-users/project-users.service.ts:22-78 | Fails with "Project not found" exactly when the project is missing; otherwise the total is the number of project members, entry i of the page is member `skip + i` of the member listing, and the page is empty past the end and otherwise holds `pageSize` members or the rest, whichever is fewer; every listed user is a member of the project |
| ProjectUsers.FindAllCountsMembershipRows | nestjs/src/project-users/project-users.service.ts:50-58 | On a consistent store, the total is the number of membership pairs of the project |
| ProjectUsers.FindAllInIdOrder | nestjs/src/project-users/project-users.service.ts:36-49 | On a store whose tables are in id order, the member listing and every page of it list users by strictly ascending id |
| ProjectUsers.FindOne | nestjs/src/project-users/project-users.service.ts:80-106 | A missing project gives "Project not found"; a user without a membership pair gives "User not found in project"; with the project, the user and the pair present the call succeeds and returns that stored user |
| ProjectUsers.AddOne | nestjs/src/project-users/project-users.service.ts:108-123 | An existing pair gives "User already exists in project"; with the user or project missing, the insert hits the store's foreign-key rejection; otherwise exactly the pair is added and the user returned |
| ProjectUsers.Delete | nestjs/src/project-users/project-users.service.ts:125-150 | Checks the user ("User not Found"), then the project ("Project not found"), then the pair ("User not Found in project"); a success removes exactly that pair and returns the user |
| ProjectUsers.FindUserProject | nestjs/src/project-users/project-users.service.ts:152-165 | Returns the pair exactly when it is in the membership set |
| ProjectUsers.AddThenDeleteRestores | nestjs/src/project-users/project-users.service.ts:108-150 | A successful add followed by a delete of the same pair gives back the original store and the same user |
| ProjectUsers.DeleteThenAddRestores | nestjs/src/project-users/project-users.service.ts:108-150 | A successful delete followed by adding the pair back succeeds and gives back the original store |
| ProjectUsers.AddOnePreservesValid | nestjs/src/project-users/project-users.service.ts:116-121 | A successful add keeps the store consistent |
| ProjectUsers.DeletePreservesValid | nestjs/src/project-users/project-users.service.ts:140-147 | A successful delete keeps the store consistent |
| ProjectUsers.AddOneToMissingProjectIsStoreError | nestjs/src/project-users/project-users.service.ts:108-121 | As written, adding an existing user to a missing project ends in the store's foreign-key error; the corrected add reports "Project not found" |
| ProjectUsers.AddOneChecked | nestjs/src/project-users/project-users.service.ts:108-123 | Corrected add: never the store's foreign-key error; missing user, then missing project, then existing pair are reported in that order; a success adds exactly the pair |
| ProjectUsers.AddOneCheckedAgreesOnSuccess | nestjs/src/project-users/project-users.service.ts:108-123 | The corrected add succeeds on exactly the calls the code succeeds on, with the same result |
| ProjectUsers.AddOneCheckedPreservesValid | nestjs/src/project-users/project-users.service.ts:108-123 | A successful corrected add keeps the store consistent |
| Tasks.GetTasks | nestjs/src/tasks/tasks.service.ts:19-54 | Fails with "Project not found" exactly when the project is missing; otherwise the total is the number of the project's tasks, entry i of the page is task `skip + i` of the project's tasks in table order (ascending id on a consistent store), and the page is empty past the end and otherwise holds `pageSize` tasks or the rest, whichever is fewer |
| Tasks.GetTasksInIdOrder | nestjs/src/tasks/tasks.service.ts:31-45 | On a store whose tables are in id order, the project's tasks and every page of them are listed by strictly ascending id |
| Tasks.ProjectTasksKeys | nestjs/src/tasks/tasks.service.ts:30-50 | The ids in the task listing are exactly the ids of tasks carrying that project id |
| Tasks.GetTasksCountsProjectTasks | nestjs/src/tasks/tasks.service.ts:46-50 | With unique task ids, the total is the number of tasks of the project |
| Tasks.GetTaskById | nestjs/src/tasks/tasks.service.ts:56-86 | Succeeds exactly when a task with that id and that project id exists, and returns such a task; otherwise "Task not found" |
| Tasks.CreateTask | nestjs/src/tasks/tasks.service.ts:88-135 | A missing project gives "Project not found"; an assignee who is not a member gives "User not found in project"; an existing member as assignee then fails with "Invalid relation" if the default state is missing from the catalog and succeeds otherwise; the new task carries the next id, the given fields and the default state, and the only other change is the project's `dateOfModified` |
| Tasks.CreateTaskFrame | nestjs/src/tasks/tasks.service.ts:100-125 | With unique project ids, a successful creation required a membership, appends exactly the new task, and changes only the target project's `dateOfModified` among the projects |
| Tasks.CreateTaskPreservesValid | nestjs/src/tasks/tasks.service.ts:100-125 | A successful creation keeps the store consistent |
| Tasks.DeleteTask | nestjs/src/tasks/tasks.service.ts:137-168 | Fails, with "Project not found", exactly when no task has that id; otherwise the remaining rows plus the rows with that id are, as a multiset, exactly the old table, so every other row keeps its multiplicity; with unique ids exactly the returned task is removed; nothing outside the task table changes |
| Tasks.DeleteTaskIgnoresProject | nestjs/src/tasks/tasks.service.ts:142-145 | The outcome does not depend on the project id argument |
| Tasks.DeleteTaskCrossesProjects | nestjs/src/tasks/tasks.service.ts:142-161 | As written, deleting a task under a project it does not belong to succeeds; the corrected delete reports "Task not found" |
| Tasks.DeleteTaskInProject | nestjs/src/tasks/tasks.service.ts:137-168 | Corrected delete: succeeds exactly when the task belongs to the named project, otherwise "Task not found"; the remaining rows plus the rows with that id are, as a multiset, the old table, and with unique ids exactly the returned task is removed |
| Tasks.DeleteTaskInProjectSparesOtherProjects | nestjs/src/tasks/tasks.service.ts:137-168 | With unique task ids, the corrected delete never removes a task of another project |
| Tables.RemoveSplits | nestjs/src/tasks/tasks.service.ts:142-146 | Delete by key keeps every other row as often as it occurred: the rows kept and the rows with that key make up the table as a multiset |
| Tables.RemoveUniqueRow | nestjs/src/tasks/tasks.service.ts:142-146 | With unique keys, deleting a row's key removes exactly that one row |
| Tasks.DeleteTaskPreservesValid | nestjs/src/tasks/tasks.service.ts:142-154 | A successful delete keeps the store consistent |
| Tasks.DeleteTaskInProjectPreservesValid | nestjs/src/tasks/tasks.service.ts:137-168 | A successful corrected delete keeps the store consistent |
| Tasks.UpdateStateOfTask | nestjs/src/tasks/tasks.service.ts:170-213 | No matching state gives "State not found" before the task is looked up; a task missing from the project gives "Task not found"; when a state matches and the task is in the project, the call succeeds; only that task's `stateId` changes, to the first matching state, and no project is stamped |
| Tasks.UpdateStateOfTaskPreservesValid | nestjs/src/tasks/tasks.service.ts:188-205 | A task state change keeps the store consistent |

## Left out

- Relation loading (`include` of manager, role, state and tasks) and the entity classes that shape the returned objects are not modelled. Results are the stored rows.
- HTTP controllers, guards, modules and validation pipes are not modelled. The guards only call the two access predicates.
- The users service is not modelled; `users/users.service.ts` is not part of this model. The model assumes `usersService.findOneById` returns nothing for a missing user. If it throws instead, `addOne` and `delete` report a missing user with that exception first.
- Role names are the strings of a role table, and the code compares `roleName` with `'Admin'`. The model uses an enumeration in which only `AdminRole` matters.
- `new Date()` and the schema's `now()` defaults become a `now: nat` parameter. A new project's creation and modification dates are both `now`.
- The schema default for `stateId` is the store field `defaultStateId`.
- Case-insensitive matching lower-cases ASCII letters only. The database's Unicode case folding is not modelled.
- Concurrency and transactions are not modelled. Every operation is one atomic step on the store. For the task insert plus project stamp, `$transaction` makes the two writes all-or-nothing. The model also treats each listing's page and count as read from one state. `$transaction` does not guarantee this at the database's default isolation level (read committed), where each statement sees its own snapshot. Agreement between page and count under concurrent writes is assumed, not modelled.
- Ids and page arithmetic are unbounded integers (`nat` ids, `int` for `skip`). The route's integer parsing also admits negative and arbitrarily large values. A negative id matches nothing, as in the model. An id or an offset beyond the database's integer range makes the query itself fail, and no handler translates that error, so the request ends in a server error. The model answers "Project not found", `false`, or an empty page instead. Out-of-range values that the store rejects are not modelled.
- `deleteTask`'s `P2003` branch ("Foreign key constraint") is not modelled: no stored row refers to a task, so removing one cannot break a reference. The `P2003` handlers of `createProject` and `createTask` are modelled. The checks before each insert already establish the manager, the project and the assignee, so the only reference left to fail is the default state.
- Projects.FindAllStates: returns the catalog and has no contract of its own. `Projects.StoredStatesAreListed` states the property that involves it.
- Tasks.GetTasksCountsProjectTasks: assumes unique task ids. Without that assumption the total counts rows, not distinct ids.
- Projects.CreateProject: duplicate ids in `userIds` are rejected as "Some users do not exist.", as the code does. The store's `in` filter returns each user once, so the count check fails.

Behaviour a reader might not expect; the model follows the code:

- A missing project is reported as "Project not found" in the membership service and in `getTasks` and `createTask`, because `projectsService.findOne` throws first. `getTaskById` and `updateStateOfTask` look the task up by project and task id together, so a missing project gives "Task not found". `deleteTask` ignores the project (see Findings).
- `addOne` does not check the user or the project. The model lets the insert fail as the store would, with `ForeignKeyViolation`.
- `createProject` writes no membership pairs. See Findings.

## Findings

| source | as written | input that shows it | evidently intended | confidence | as-written member | corrected member |
|---|---|---|---|---|---|---|
| nestjs/src/projects/projects.service.ts:38-43 | The project is created from name, description and manager only. `userIds` is checked and then dropped. | A consistent store with user 1 as manager and user 2. Creating a project with `userIds = [2]` succeeds, but user 2 has no membership pair with it and fails the participant check. | Create the project and one membership pair per listed user in the same step. The module's own test mocks the created project with `userProject` rows built from `userIds` (projects.service.spec.ts:97-99). | medium, not executed | Projects.CreateProjectGrantsNoMembership | Projects.CreateProjectWithMembers |
| nestjs/src/tasks/tasks.service.ts:142-145 | The delete filters on the task id alone and ignores `projectId`. A missing task is reported as "Project not found". | Task 7 belongs to project 2. `deleteTask(1, 7)` deletes it, although the request names project 1. | Delete only a task of the named project, as `getTaskById` and `updateStateOfTask` look tasks up. Otherwise report "Task not found". | high, not executed | Tasks.DeleteTaskCrossesProjects | Tasks.DeleteTaskInProject |
| nestjs/src/project-users/project-users.service.ts:108-121 | `addOne` inserts the pair without checking that the project exists. | User 1 exists and project 99 does not. `addOne(99, 1)` reaches the insert, and the store's foreign-key error propagates untranslated. | Report a missing user or project as not found, as the endpoint documents ("User/Project not found", project-users.controller.ts:62) and as `delete` does. | medium, not executed | ProjectUsers.AddOneToMissingProjectIsStoreError | ProjectUsers.AddOneChecked |

=== FILE: database.dfy ===
/**
 * The persistent state the services read and write, as one immutable value:
 * the user, project, task and state tables, the membership relation, and the
 * column defaults and id sequences the store supplies on insert.
 */
module Database {
  import opened Wrappers
  import opened Tables
  import Text

  type Id = nat

  /** The roles of the global hierarchy; only `AdminRole` is consulted by the access checks. */
  datatype Role = AdminRole | ManagerRole | UserRole

  datatype User = User(id: Id, email: string, firstName: string, lastName: string, role: Role)

  /** One entry of the state catalog shared by projects and tasks. */
  datatype StateOfProject = StateOfProject(id: Id, state: string)

  datatype Project = Project(
    id: Id,
    name: string,
    description: string,
    managerId: Id,
    stateId: Id,
    dateOfCreation: nat,
    dateOfModified: nat)

  datatype Task = Task(id: Id, name: string, description: string, userId: Id, projectId: Id, stateId: Id)

  datatype Store = Store(
    users: seq<User>,
    projects: seq<Project>,
    tasks: seq<Task>,
    /** The membership rows, each a `(userId, projectId)` pair. */
    members: set<(Id, Id)>,
    /** The state catalog, in the order the store scans it. */
    states: seq<StateOfProject>,
    /** The column default a new project or task gets for `stateId`. */
    defaultStateId: Id,
    /** The next value of the project and task id sequences. */
    nextProjectId: Id,
    nextTaskId: Id)

  /**
   * What a service call can fail with: the HTTP exceptions the services throw,
   * and the store's own foreign-key rejection, which some paths let through
   * untranslated.
   */
  datatype Error = NotFound(message: string) | BadRequest(message: string) | ForeignKeyViolation

  const ManagerNotFound := "Manager not found."
  const SomeUsersMissing := "Some users do not exist."
  const ProjectNotFound := "Project not found"
  const StateNotFound := "State not found"
  const UserNotInProject := "User not found in project"
  const UserAlreadyInProject := "User already exists in project"
  const UserNotFound := "User not Found"
  const UserNotInProjectOnDelete := "User not Found in project"
  const TaskNotFound := "Task not found"
  const InvalidRelation := "Invalid relation"

  function UserKey(u: User): Id { u.id }
  function ProjectKey(p: Project): Id { p.id }
  function TaskKey(t: Task): Id { t.id }
  function TaskProjectKey(t: Task): Id { t.projectId }
  function StateKey(st: StateOfProject): Id { st.id }

  predicate HasUser(s: Store, id: Id) { id in Keys(s.users, UserKey) }
  predicate HasProject(s: Store, id: Id) { id in Keys(s.projects, ProjectKey) }
  predicate HasTask(s: Store, id: Id) { id in Keys(s.tasks, TaskKey) }
  predicate HasState(s: Store, id: Id) { id in Keys(s.states, StateKey) }

  function UserById(s: Store, id: Id): Option<User> { Find(s.users, UserKey, id) }
  function ProjectById(s: Store, id: Id): Option<Project> { Find(s.projects, ProjectKey, id) }
  function TaskById(s: Store, id: Id): Option<Task> { Find(s.tasks, TaskKey, id) }

  /** Primary keys are unique in every table. */
  ghost predicate KeysUnique(s: Store) {
    && UniqueKeys(s.users, UserKey)
    && UniqueKeys(s.projects, ProjectKey)
    && UniqueKeys(s.tasks, TaskKey)
  }

  /**
   * Each table lists its rows in ascending primary-key order, the order in
   * which the store returns a paginated `findMany` that names no `orderBy`.
   */
  ghost predicate IdsAscend(s: Store) {
    && Ascending(s.users, UserKey)
    && Ascending(s.projects, ProjectKey)
    && Ascending(s.tasks, TaskKey)
  }

  /** Every id is below its sequence's next value, so the sequence never repeats an id. */
  ghost predicate IdsBelowSequences(s: Store) {
    && (forall i | 0 <= i < |s.projects| :: s.projects[i].id < s.nextProjectId)
    && (forall i | 0 <= i < |s.tasks| :: s.tasks[i].id < s.nextTaskId)
  }

  /**
   * Every foreign key refers to an existing row: a project's manager and
   * state, a task's project, assignee and state, and both ends of a
   * membership row. The column default `defaultStateId` is not a stored
   * reference and may name no catalog entry.
   */
  ghost predicate ReferencesResolve(s: Store) {
    && (forall i | 0 <= i < |s.projects| :: HasUser(s, s.projects[i].managerId) && HasState(s, s.projects[i].stateId))
    && (forall i | 0 <= i < |s.tasks| ::
          HasProject(s, s.tasks[i].projectId) && HasUser(s, s.tasks[i].userId) && HasState(s, s.tasks[i].stateId))
    && (forall m | m in s.members :: HasUser(s, m.0) && HasProject(s, m.1))
  }

  /** What the database guarantees of every state it can be in. */
  ghost predicate Valid(s: Store) {
    KeysUnique(s) && IdsAscend(s) && IdsBelowSequences(s) && ReferencesResolve(s)
  }

  /** The catalog entry at `i` is the first whose name contains `query`, ignoring case. */
  ghost predicate IsFirstMatch(states: seq<StateOfProject>, query: string, i: int) {
    && 0 <= i < |states|
    && Text.ContainsIgnoreCase(states[i].state, query)
    && forall j | 0 <= j < i :: !Text.ContainsIgnoreCase(states[j].state, query)
  }

  /**
   * State lookup by part of its name: the first catalog entry whose name
   * contains `query` case-insensitively, or nothing.
   */
  function ResolveState(states: seq<StateOfProject>, query: string): (r: Option<StateOfProject>)
    ensures r.None? <==> forall i | 0 <= i < |states| :: !Text.ContainsIgnoreCase(states[i].state, query)
    ensures r.Some? ==> exists i :: IsFirstMatch(states, query, i) && states[i] == r.value
  {
    if |states| == 0 then None
    else if Text.ContainsIgnoreCase(states[0].state, query) then
      assert IsFirstMatch(states, query, 0);
      Some(states[0])
    else
      var r := ResolveState(states[1..], query);
      assert r.Some? ==> exists i :: IsFirstMatch(states, query, i) && states[i] == r.value by {
        if r.Some? {
          var i :| IsFirstMatch(states[1..], query, i) && states[1..][i] == r.value;
          assert IsFirstMatch(states, query, i + 1);
        }
      }
      r
  }

  /** Whether a query matches is decided on its lower-case form, so the query's case never changes the state found. */
  lemma {:induction false} ResolveStateIgnoresQueryCase(states: seq<StateOfProject>, query: string)
    ensures ResolveState(states, query) == ResolveState(states, Text.LowerStr(query))
  {
    if |states| > 0 {
      Text.QueryCaseIrrelevant(states[0].state, query);
      ResolveStateIgnoresQueryCase(states[1..], query);
    }
  }

  /** Editing only the membership rows keeps the store consistent when every row still names an existing user and project. */
  lemma MembershipEditPreservesValid(s: Store, s': Store)
    requires Valid(s)
    requires s' == s.(members := s'.members)
    requires forall m | m in s'.members :: HasUser(s, m.0) && HasProject(s, m.1)
    ensures Valid(s')
  {
    assert s'.users == s.users && s'.projects == s.projects && s'.tasks == s.tasks && s'.states == s.states;
    assert KeysUnique(s') && IdsAscend(s') && IdsBelowSequences(s');
    forall i | 0 <= i < |s'.projects|
      ensures HasUser(s', s'.projects[i].managerId) && HasState(s', s'.projects[i].stateId)
    {
      assert HasUser(s, s.projects[i].managerId) && HasState(s, s.projects[i].stateId);
    }
    forall i | 0 <= i < |s'.tasks|
      ensures HasProject(s', s'.tasks[i].projectId) && HasUser(s', s'.tasks[i].userId) && HasState(s', s'.tasks[i].stateId)
    {
      assert HasProject(s, s.tasks[i].projectId) && HasUser(s, s.tasks[i].userId) && HasState(s, s.tasks[i].stateId);
    }
    assert ReferencesResolve(s');
  }
}

=== FILE: pagination.dfy ===
/**
 * The page query every listing endpoint accepts, and the skip/take slice the
 * services derive from it.
 */
module Pagination {

  /** `pageNumber` and `pageSize` as they arrive, before validation. */
  datatype PaginationQuery = PaginationQuery(pageNumber: int, pageSize: int)

  const AllowedPageSizes: set<int> := {5, 10, 15, 25}
  const DefaultPageNumber: int := 1
  const DefaultPageSize: int := 10

  /** The query a request gets when it names neither field. */
  function Default(): PaginationQuery {
    PaginationQuery(DefaultPageNumber, DefaultPageSize)
  }

  /** The validator's constraints: an integer page number of at least 1 and a listed page size. */
  predicate Valid(q: PaginationQuery) {
    q.pageNumber >= 1 && q.pageSize in AllowedPageSizes
  }

  function Skip(q: PaginationQuery): int {
    (q.pageNumber - 1) * q.pageSize
  }

  function Take(q: PaginationQuery): int {
    q.pageSize
  }

  /** The store's `findMany({ skip, take })` over `rows`. */
  function Page<T>(rows: seq<T>, q: PaginationQuery): (r: seq<T>)
    requires Valid(q)
    ensures |r| <= q.pageSize
    ensures Skip(q) >= |rows| ==> |r| == 0
    ensures Skip(q) < |rows| ==> |r| == if |rows| - Skip(q) < q.pageSize then |rows| - Skip(q) else q.pageSize
    ensures forall i | 0 <= i < |r| :: 0 <= Skip(q) + i < |rows| && r[i] == rows[Skip(q) + i]
  {
    ValidQueryBounds(q);
    var lo := if Skip(q) < |rows| then Skip(q) else |rows|;
    var hi := if lo + Take(q) < |rows| then lo + Take(q) else |rows|;
    rows[lo..hi]
  }

  lemma DefaultIsValid()
    ensures Valid(Default())
    ensures Skip(Default()) == 0 && Take(Default()) == 10
  {
  }

  /** A valid query takes a positive number of rows from a non-negative offset. */
  lemma ValidQueryBounds(q: PaginationQuery)
    requires Valid(q)
    ensures Take(q) > 0
    ensures Skip(q) >= 0
  {
    var n := q.pageNumber - 1;
    assert n >= 0 && q.pageSize > 0;
    assert Skip(q) == n * q.pageSize;
  }

  /** Page 1 is the first `pageSize` rows. */
  lemma FirstPageIsPrefix<T>(rows: seq<T>, q: PaginationQuery)
    requires Valid(q) && q.pageNumber == 1
    ensures Page(rows, q) == rows[..if |rows| < q.pageSize then |rows| else q.pageSize]
  {
  }

  lemma {:induction false} MulStep(n: int, m: int, size: int)
    requires n < m && size > 0
    ensures n * size + size <= m * size
    decreases m - n
  {
    assert (m - 1) * size + size == m * size;
    if n < m - 1 {
      MulStep(n, m - 1, size);
    }
  }

  /** The next page starts where this one stops, and the two together are one contiguous slice. */
  lemma NextPageIsAdjacent<T>(rows: seq<T>, q: PaginationQuery)
    requires Valid(q)
    ensures Valid(q.(pageNumber := q.pageNumber + 1))
    ensures Skip(q.(pageNumber := q.pageNumber + 1)) == Skip(q) + Take(q)
    ensures Skip(q) < |rows| ==>
      Page(rows, q) + Page(rows, q.(pageNumber := q.pageNumber + 1))
        == rows[Skip(q)..if Skip(q) + 2 * Take(q) < |rows| then Skip(q) + 2 * Take(q) else |rows|]
  {
    var q' := q.(pageNumber := q.pageNumber + 1);
    assert Skip(q') == (q.pageNumber - 1) * q.pageSize + q.pageSize;
    ValidQueryBounds(q);
  }

  /** Distinct page numbers of one page size never share a row. */
  lemma PagesAreDisjoint(q1: PaginationQuery, q2: PaginationQuery, i: int, j: int)
    requires Valid(q1) && Valid(q2)
    requires q1.pageSize == q2.pageSize && q1.pageNumber != q2.pageNumber
    requires 0 <= i < Take(q1) && 0 <= j < Take(q2)
    ensures Skip(q1) + i != Skip(q2) + j
  {
    if q1.pageNumber < q2.pageNumber {
      MulStep(q1.pageNumber - 1, q2.pageNumber - 1, q1.pageSize);
    } else {
      MulStep(q2.pageNumber - 1, q1.pageNumber - 1, q1.pageSize);
    }
  }
}

=== FILE: permissions.dfy ===
/**
 * The access policy consulted before protected operations: whether the
 * requesting actor (possibly anonymous) owns or administers a project, or at
 * least participates in it. Both checks only read the store.
 */
module Permissions {
  import opened Wrappers
  import opened Tables
  import opened Database

  /** The identity attached to a request: its user id and role. */
  datatype Actor = Actor(id: Id, role: Role)

  /** Ownership guard: the actor is an admin, or the manager of the project. */
  function IsOwnerOrAdmin(s: Store, projectId: Id, actor: Option<Actor>): (r: bool)
    ensures actor.None? ==> !r
    ensures actor.Some? && actor.value.role == AdminRole ==> r
    ensures actor.Some? && actor.value.role != AdminRole && !HasProject(s, projectId) ==> !r
    ensures r && actor.Some? && actor.value.role != AdminRole ==>
      exists p | p in s.projects :: p.id == projectId && p.managerId == actor.value.id
  {
    if actor.None? then false
    else if actor.value.role == AdminRole then true
    else
      match ProjectById(s, projectId)
      case None => false
      case Some(project) => project.managerId == actor.value.id
  }

  /** Participant guard: ownership or administration, or a membership row for the actor. */
  function IsParticipantOrOwnerOrAdmin(s: Store, projectId: Id, actor: Option<Actor>): (r: bool)
    ensures IsOwnerOrAdmin(s, projectId, actor) ==> r
    ensures actor.None? ==> !r
    ensures actor.Some? && !IsOwnerOrAdmin(s, projectId, actor) ==> (r <==> (actor.value.id, projectId) in s.members)
  {
    if IsOwnerOrAdmin(s, projectId, actor) then true
    else if actor.None? then false
    else (actor.value.id, projectId) in s.members
  }

  /** Grant levels, lowest first. */
  datatype Access = Denied | Participant | Owner | Admin

  function Rank(a: Access): nat {
    match a
    case Denied => 0
    case Participant => 1
    case Owner => 2
    case Admin => 3
  }

  /** Reference policy: the highest level the actor reaches on the project, decided in one place. */
  function Grant(s: Store, projectId: Id, actor: Option<Actor>): Access {
    if actor.None? then Denied
    else if actor.value.role == AdminRole then Admin
    else if exists p | p in s.projects :: p.id == projectId && p.managerId == actor.value.id then Owner
    else if (actor.value.id, projectId) in s.members then Participant
    else Denied
  }

  /** With unique project ids the ownership guard admits exactly the actors ranked owner or above. */
  lemma OwnershipGuardMatchesGrant(s: Store, projectId: Id, actor: Option<Actor>)
    requires UniqueKeys(s.projects, ProjectKey)
    ensures IsOwnerOrAdmin(s, projectId, actor) <==> Rank(Grant(s, projectId, actor)) >= Rank(Owner)
  {
    if actor.Some? && actor.value.role != AdminRole {
      var found := ProjectById(s, projectId);
      if p :| p in s.projects && p.id == projectId && p.managerId == actor.value.id {
        FindUnique(s.projects, ProjectKey, p);
        assert found == Some(p);
      } else if found.Some? {
        assert found.value in s.projects && found.value.id == projectId;
      }
    }
  }

  /** With unique project ids the participant guard admits exactly the actors ranked participant or above. */
  lemma ParticipantGuardMatchesGrant(s: Store, projectId: Id, actor: Option<Actor>)
    requires UniqueKeys(s.projects, ProjectKey)
    ensures IsParticipantOrOwnerOrAdmin(s, projectId, actor) <==> Rank(Grant(s, projectId, actor)) >= Rank(Participant)
  {
    OwnershipGuardMatchesGrant(s, projectId, actor);
  }

  /** Admin dominates: an administrator passes both guards, whether or not the project exists. */
  lemma AdminPassesBothGuards(s: Store, projectId: Id, a: Actor)
    requires a.role == AdminRole
    ensures IsOwnerOrAdmin(s, projectId, Some(a))
    ensures IsParticipantOrOwnerOrAdmin(s, projectId, Some(a))
  {
  }

  /** A non-admin who neither manages the project nor has a membership row for it passes neither guard. */
  lemma OutsiderPassesNoGuard(s: Store, projectId: Id, a: Actor)
    requires UniqueKeys(s.projects, ProjectKey)
    requires a.role != AdminRole
    requires forall p | p in s.projects && p.id == projectId :: p.managerId != a.id
    requires (a.id, projectId) !in s.members
    ensures !IsOwnerOrAdmin(s, projectId, Some(a))
    ensures !IsParticipantOrOwnerOrAdmin(s, projectId, Some(a))
  {
    OwnershipGuardMatchesGrant(s, projectId, Some(a));
  }
}

=== FILE: project_users.dfy ===
/**
 * Project membership: listing a project's members, looking one up, adding
 * and removing a membership row, and the raw membership lookup the access
 * checks and task creation rely on.
 */
module ProjectUsers {
  import opened Wrappers
  import opened Tables
  import opened Database
  import Pagination
  import Projects

  /** The ids of the users with a membership row for `projectId`. */
  function MemberIds(s: Store, projectId: Id): (ids: set<Id>)
    ensures forall id :: id in ids <==> (id, projectId) in s.members
  {
    var ids := set m | m in s.members && m.1 == projectId :: m.0;
    assert forall id | (id, projectId) in s.members :: id in ids by {
      forall id | (id, projectId) in s.members ensures id in ids {
        var m := (id, projectId);
        assert m in s.members && m.1 == projectId;
      }
    }
    ids
  }

  /** The users the store returns for "has a membership row in this project", in table order. */
  function ProjectMembers(s: Store, projectId: Id): seq<User> {
    Select(s.users, UserKey, MemberIds(s, projectId))
  }

  /**
   * With the user table in id order, as in every consistent store, the member
   * listing and so every page of it lists users by ascending id.
   */
  lemma FindAllInIdOrder(s: Store, projectId: Id, q: Pagination.PaginationQuery)
    requires IdsAscend(s) && Pagination.Valid(q)
    ensures Ascending(ProjectMembers(s, projectId), UserKey)
    ensures FindAll(s, projectId, q).Ok? ==> Ascending(FindAll(s, projectId, q).value.0, UserKey)
  {
    SelectKeepsAscending(s.users, UserKey, MemberIds(s, projectId), UserKey);
    var r := FindAll(s, projectId, q);
    if r.Ok? {
      WindowKeepsAscending(ProjectMembers(s, projectId), r.value.0, UserKey, Pagination.Skip(q));
    }
  }

  /** The member listing holds exactly the users that have a membership row for the project. */
  lemma ProjectMembersAreParticipants(s: Store, projectId: Id, u: User)
    ensures u in ProjectMembers(s, projectId) <==> u in s.users && (u.id, projectId) in s.members
  {
    if u in s.users && (u.id, projectId) in s.members {
      var i :| 0 <= i < |s.users| && s.users[i] == u;
      assert u.id in MemberIds(s, projectId);
    }
  }

  /** `findAll`: the requested page of the project's members, and how many members it has. */
  function FindAll(s: Store, projectId: Id, q: Pagination.PaginationQuery): (r: Result<(seq<User>, nat), Error>)
    requires Pagination.Valid(q)
    ensures r.Err? <==> !HasProject(s, projectId)
    ensures r.Err? ==> r.error == NotFound(ProjectNotFound)
    ensures r.Ok? ==> |r.value.0| <= q.pageSize && |r.value.0| <= r.value.1
    ensures r.Ok? ==> forall i | 0 <= i < |r.value.0| ::
      r.value.0[i] in s.users && (r.value.0[i].id, projectId) in s.members
    ensures r.Ok? ==> r.value.1 == |ProjectMembers(s, projectId)|
    ensures r.Ok? ==> forall i | 0 <= i < |r.value.0| ::
      0 <= Pagination.Skip(q) + i < |ProjectMembers(s, projectId)|
      && r.value.0[i] == ProjectMembers(s, projectId)[Pagination.Skip(q) + i]
    ensures r.Ok? && Pagination.Skip(q) >= r.value.1 ==> |r.value.0| == 0
    ensures r.Ok? && Pagination.Skip(q) < r.value.1 ==>
      |r.value.0| == if r.value.1 - Pagination.Skip(q) < q.pageSize then r.value.1 - Pagination.Skip(q) else q.pageSize
  {
    match Projects.FindOne(s, projectId)
    case Err(e) => Err(e)
    case Ok(_) =>
      var all := ProjectMembers(s, projectId);
      var page := Pagination.Page(all, q);
      PageOfMembers(s, projectId, q);
      Ok((page, |all|))
  }

  lemma PageOfMembers(s: Store, projectId: Id, q: Pagination.PaginationQuery)
    requires Pagination.Valid(q)
    ensures |Pagination.Page(ProjectMembers(s, projectId), q)| <= |ProjectMembers(s, projectId)|
    ensures forall i | 0 <= i < |Pagination.Page(ProjectMembers(s, projectId), q)| ::
      Pagination.Page(ProjectMembers(s, projectId), q)[i] in s.users
      && (Pagination.Page(ProjectMembers(s, projectId), q)[i].id, projectId) in s.members
  {
    var all := ProjectMembers(s, projectId);
    var page := Pagination.Page(all, q);
    Pagination.ValidQueryBounds(q);
    forall i | 0 <= i < |page| ensures page[i] in s.users && (page[i].id, projectId) in s.members {
      var u := all[Pagination.Skip(q) + i];
      assert u in all;
      assert u.id in MemberIds(s, projectId);
    }
  }

  /** When every membership row names an existing user, there is one listed member per membership row of the project. */
  lemma MemberCount(s: Store, projectId: Id)
    requires UniqueKeys(s.users, UserKey)
    requires forall m | m in s.members :: HasUser(s, m.0)
    ensures |ProjectMembers(s, projectId)| == |MemberIds(s, projectId)|
  {
    var ids := MemberIds(s, projectId);
    SelectCount(s.users, UserKey, ids);
    MemberIdsAreUsers(s, projectId);
    assert Keys(s.users, UserKey) * ids == ids;
  }

  lemma MemberIdsAreUsers(s: Store, projectId: Id)
    requires forall m | m in s.members :: HasUser(s, m.0)
    ensures MemberIds(s, projectId) <= Keys(s.users, UserKey)
  {
    forall id | id in MemberIds(s, projectId) ensures id in Keys(s.users, UserKey) {
      assert (id, projectId) in s.members;
    }
  }

  /** On a consistent store the total of the member listing is the number of membership rows of the project. */
  lemma FindAllCountsMembershipRows(s: Store, projectId: Id, q: Pagination.PaginationQuery)
    requires Valid(s) && Pagination.Valid(q)
    ensures FindAll(s, projectId, q).Ok? ==> FindAll(s, projectId, q).value.1 == |MemberIds(s, projectId)|
  {
    assert ReferencesResolve(s);
    MemberCount(s, projectId);
  }

  /** `findOne`: the user, provided the project exists and the user has a membership row in it. */
  function FindOne(s: Store, projectId: Id, userId: Id): (r: Result<User, Error>)
    ensures !HasProject(s, projectId) ==> r == Err(NotFound(ProjectNotFound))
    ensures HasProject(s, projectId) && (!HasUser(s, userId) || (userId, projectId) !in s.members) ==>
      r == Err(NotFound(UserNotInProject))
    ensures HasProject(s, projectId) && HasUser(s, userId) && (userId, projectId) in s.members ==> r.Ok?
    ensures r.Ok? ==>
      HasProject(s, projectId) && (userId, projectId) in s.members && r.value in s.users && r.value.id == userId
  {
    var _ :- Projects.FindOne(s, projectId);
    if (userId, projectId) !in s.members then Err(NotFound(UserNotInProject))
    else
      match UserById(s, userId)
      case None => Err(NotFound(UserNotInProject))
      case Some(u) => Ok(u)
  }

  /**
   * `addOne`: refuses an existing pair; otherwise inserts the membership row.
   * The service checks neither the user nor the project, so a missing one
   * surfaces as the store's foreign-key rejection of the insert.
   */
  function AddOne(s: Store, projectId: Id, userId: Id): (r: Result<(Store, User), Error>)
    ensures (userId, projectId) in s.members ==> r == Err(BadRequest(UserAlreadyInProject))
    ensures (userId, projectId) !in s.members && (!HasUser(s, userId) || !HasProject(s, projectId)) ==>
      r == Err(ForeignKeyViolation)
    ensures (userId, projectId) !in s.members && HasUser(s, userId) && HasProject(s, projectId) ==> r.Ok?
    ensures r.Ok? ==>
      && (userId, projectId) !in s.members
      && r.value.0 == s.(members := s.members + {(userId, projectId)})
      && r.value.1 in s.users && r.value.1.id == userId
  {
    var user := UserById(s, userId);
    if FindUserProject(s, projectId, userId).Some? then Err(BadRequest(UserAlreadyInProject))
    else if user.None? || !HasProject(s, projectId) then Err(ForeignKeyViolation)
    else Ok((s.(members := s.members + {(userId, projectId)}), user.value))
  }

  /** `delete`: checks the user, then the project, then the pair, and removes exactly that row. */
  function Delete(s: Store, projectId: Id, userId: Id): (r: Result<(Store, User), Error>)
    ensures !HasUser(s, userId) ==> r == Err(NotFound(UserNotFound))
    ensures HasUser(s, userId) && !HasProject(s, projectId) ==> r == Err(NotFound(ProjectNotFound))
    ensures HasUser(s, userId) && HasProject(s, projectId) && (userId, projectId) !in s.members ==>
      r == Err(NotFound(UserNotInProjectOnDelete))
    ensures HasUser(s, userId) && HasProject(s, projectId) && (userId, projectId) in s.members ==> r.Ok?
    ensures r.Ok? ==>
      && r.value.0 == s.(members := s.members - {(userId, projectId)})
      && r.value.1 in s.users && r.value.1.id == userId
  {
    match UserById(s, userId)
    case None => Err(NotFound(UserNotFound))
    case Some(user) =>
      var _ :- Projects.FindOne(s, projectId);
      if FindUserProject(s, projectId, userId).None? then Err(NotFound(UserNotInProjectOnDelete))
      else Ok((s.(members := s.members - {(userId, projectId)}), user))
  }

  /** `findUserProject`: the membership row for the pair, if there is one. */
  function FindUserProject(s: Store, projectId: Id, userId: Id): (r: Option<(Id, Id)>)
    ensures r.Some? <==> (userId, projectId) in s.members
    ensures r.Some? ==> r.value == (userId, projectId)
  {
    if (userId, projectId) in s.members then Some((userId, projectId)) else None
  }

  /** Adding a user and then removing the same user gives back the original store and the same user. */
  lemma AddThenDeleteRestores(s: Store, projectId: Id, userId: Id)
    requires AddOne(s, projectId, userId).Ok?
    ensures Delete(AddOne(s, projectId, userId).value.0, projectId, userId)
      == Ok((s, AddOne(s, projectId, userId).value.1))
  {
    var (s', u) := AddOne(s, projectId, userId).value;
    assert s'.users == s.users && s'.projects == s.projects;
    assert s'.members - {(userId, projectId)} == s.members;
  }

  /** Removing a member and adding the user back gives back the original store. */
  lemma DeleteThenAddRestores(s: Store, projectId: Id, userId: Id)
    requires Delete(s, projectId, userId).Ok?
    ensures AddOne(Delete(s, projectId, userId).value.0, projectId, userId).Ok?
    ensures AddOne(Delete(s, projectId, userId).value.0, projectId, userId).value.0 == s
  {
    var s' := Delete(s, projectId, userId).value.0;
    assert s'.users == s.users && s'.projects == s.projects;
    assert s'.members + {(userId, projectId)} == s.members;
  }

  lemma AddOnePreservesValid(s: Store, projectId: Id, userId: Id)
    requires Valid(s)
    ensures AddOne(s, projectId, userId).Ok? ==> Valid(AddOne(s, projectId, userId).value.0)
  {
    var r := AddOne(s, projectId, userId);
    if r.Ok? {
      MembershipEditPreservesValid(s, r.value.0);
    }
  }

  lemma DeletePreservesValid(s: Store, projectId: Id, userId: Id)
    requires Valid(s)
    ensures Delete(s, projectId, userId).Ok? ==> Valid(Delete(s, projectId, userId).value.0)
  {
    var r := Delete(s, projectId, userId);
    if r.Ok? {
      MembershipEditPreservesValid(s, r.value.0);
    }
  }

  /**
   * `addOne` with the user and project checked first, in the order `delete`
   * checks them, so that a missing user or project is reported as not found.
   */
  function AddOneChecked(s: Store, projectId: Id, userId: Id): (r: Result<(Store, User), Error>)
    ensures r != Err(ForeignKeyViolation)
    ensures !HasUser(s, userId) ==> r == Err(NotFound(UserNotFound))
    ensures HasUser(s, userId) && !HasProject(s, projectId) ==> r == Err(NotFound(ProjectNotFound))
    ensures HasUser(s, userId) && HasProject(s, projectId) && (userId, projectId) in s.members ==>
      r == Err(BadRequest(UserAlreadyInProject))
    ensures r.Ok? ==>
      && HasProject(s, projectId) && (userId, projectId) !in s.members
      && r.value.0 == s.(members := s.members + {(userId, projectId)})
      && r.value.1 in s.users && r.value.1.id == userId
  {
    match UserById(s, userId)
    case None => Err(NotFound(UserNotFound))
    case Some(user) =>
      var _ :- Projects.FindOne(s, projectId);
      if FindUserProject(s, projectId, userId).Some? then Err(BadRequest(UserAlreadyInProject))
      else Ok((s.(members := s.members + {(userId, projectId)}), user))
  }

  /** As written, adding an existing user to a project that does not exist fails with the store's untranslated error. */
  lemma AddOneToMissingProjectIsStoreError(s: Store, projectId: Id, userId: Id)
    requires HasUser(s, userId) && !HasProject(s, projectId)
    requires Valid(s)
    ensures AddOne(s, projectId, userId) == Err(ForeignKeyViolation)
    ensures AddOneChecked(s, projectId, userId) == Err(NotFound(ProjectNotFound))
  {
    assert (userId, projectId) !in s.members;
  }

  /** The checked variant differs only in how failures are reported: both succeed on the same calls, with the same result. */
  lemma AddOneCheckedAgreesOnSuccess(s: Store, projectId: Id, userId: Id)
    ensures AddOneChecked(s, projectId, userId).Ok? <==> AddOne(s, projectId, userId).Ok?
    ensures AddOne(s, projectId, userId).Ok? ==> AddOneChecked(s, projectId, userId) == AddOne(s, projectId, userId)
  {
  }

  /** Like the code's add, the corrected add keeps every consistency guarantee of the store. */
  lemma AddOneCheckedPreservesValid(s: Store, projectId: Id, userId: Id)
    requires Valid(s)
    ensures AddOneChecked(s, projectId, userId).Ok? ==> Valid(AddOneChecked(s, projectId, userId).value.0)
  {
    AddOneCheckedAgreesOnSuccess(s, projectId, userId);
    AddOnePreservesValid(s, projectId, userId);
  }
}

=== FILE: projects.dfy ===
/**
 * Project lifecycle: creation with existence checks on the manager and the
 * listed users, paginated listing, lookup, state change through the state
 * catalog, and the modification timestamp.
 */
module Projects {
  import opened Wrappers
  import opened Tables
  import opened Database
  import Text
  import Pagination

  /** The body of a project creation request. */
  datatype CreateProjectDto = CreateProjectDto(name: string, description: string, userIds: seq<Id>)

  function IdSet(ids: seq<Id>): set<Id> {
    set id | id in ids
  }

  ghost predicate AllDistinct(ids: seq<Id>) {
    forall i, j | 0 <= i < j < |ids| :: ids[i] != ids[j]
  }

  /** The users that `findMany({ where: { id: { in: userIds } } })` returns. */
  function ListedUsers(s: Store, userIds: seq<Id>): seq<User> {
    Select(s.users, UserKey, IdSet(userIds))
  }

  /** `s'` is `s` with only the project whose id is `p.id` replaced by `p`. */
  ghost predicate OnlyProjectReplaced(s: Store, s': Store, p: Project) {
    && s' == s.(projects := s'.projects)
    && |s'.projects| == |s.projects|
    && forall i | 0 <= i < |s.projects| ::
         s'.projects[i] == if s.projects[i].id == p.id then p else s.projects[i]
  }

  /** `s'` is `s` with `p` appended to the project table under a fresh id from the sequence. */
  ghost predicate ProjectAppended(s: Store, s': Store, p: Project) {
    && p.id == s.nextProjectId
    && s' == s.(projects := s.projects + [p], nextProjectId := s.nextProjectId + 1)
  }

  function CreateProject(s: Store, dto: CreateProjectDto, managerId: Id, now: nat): (r: Result<(Store, Project), Error>)
    ensures !HasUser(s, managerId) ==> r == Err(NotFound(ManagerNotFound))
    ensures HasUser(s, managerId) && |ListedUsers(s, dto.userIds)| != |dto.userIds| ==>
      r == Err(NotFound(SomeUsersMissing))
    ensures HasUser(s, managerId) && |ListedUsers(s, dto.userIds)| == |dto.userIds| && !HasState(s, s.defaultStateId) ==>
      r == Err(BadRequest(InvalidRelation))
    ensures HasUser(s, managerId) && |ListedUsers(s, dto.userIds)| == |dto.userIds| && HasState(s, s.defaultStateId) ==>
      r.Ok?
    ensures r.Ok? ==>
      var (s', p) := r.value;
      && HasUser(s, managerId) && HasState(s, p.stateId)
      && ProjectAppended(s, s', p)
      && s'.members == s.members
      && p.name == dto.name && p.description == dto.description && p.managerId == managerId
      && p.stateId == s.defaultStateId && p.dateOfCreation == now && p.dateOfModified == now
  {
    match UserById(s, managerId)
    case None => Err(NotFound(ManagerNotFound))
    case Some(_) =>
      if |ListedUsers(s, dto.userIds)| != |dto.userIds| then Err(NotFound(SomeUsersMissing))
      else if !HasState(s, s.defaultStateId) then Err(BadRequest(InvalidRelation))
      else
        var p := Project(s.nextProjectId, dto.name, dto.description, managerId, s.defaultStateId, now, now);
        Ok((s.(projects := s.projects + [p], nextProjectId := s.nextProjectId + 1), p))
  }

  lemma {:induction false} DistinctCount(ids: seq<Id>)
    ensures |IdSet(ids)| <= |ids|
    ensures |IdSet(ids)| == |ids| <==> AllDistinct(ids)
  {
    if |ids| > 0 {
      var rest := ids[1..];
      DistinctCount(rest);
      assert IdSet(ids) == {ids[0]} + IdSet(rest) by {
        assert forall id | id in ids :: id == ids[0] || id in rest;
        assert forall id | id in rest :: id in ids;
      }
      if ids[0] in IdSet(rest) {
        assert IdSet(ids) == IdSet(rest);
        var k :| 0 <= k < |rest| && rest[k] == ids[0];
        assert ids[k + 1] == ids[0];
      } else {
        assert AllDistinct(rest) ==> AllDistinct(ids) by {
          if AllDistinct(rest) {
            forall i, j | 0 <= i < j < |ids| ensures ids[i] != ids[j] {
              if i == 0 {
                assert ids[j] == rest[j - 1];
              } else {
                assert ids[i] == rest[i - 1] && ids[j] == rest[j - 1];
              }
            }
          }
        }
        assert AllDistinct(ids) ==> AllDistinct(rest) by {
          if AllDistinct(ids) {
            forall i, j | 0 <= i < j < |rest| ensures rest[i] != rest[j] {
              assert rest[i] == ids[i + 1] && rest[j] == ids[j + 1];
            }
          }
        }
      }
    }
  }

  lemma SubsetCount(a: set<Id>, b: set<Id>)
    requires a <= b
    ensures |a| <= |b|
    ensures |a| == |b| ==> a == b
  {
    assert b == a + (b - a);
    assert |b| == |a| + |b - a|;
    if |a| == |b| {
      assert |b - a| == 0;
    }
  }

  /**
   * The count comparison of the creation request accepts the listed ids
   * exactly when every one of them is an existing user and none is repeated:
   * a missing id and a duplicated id are both reported as missing users.
   */
  lemma ListedUsersCheck(s: Store, userIds: seq<Id>)
    requires UniqueKeys(s.users, UserKey)
    ensures |ListedUsers(s, userIds)| == |userIds| <==>
      AllDistinct(userIds) && forall id | id in userIds :: HasUser(s, id)
  {
    SelectCount(s.users, UserKey, IdSet(userIds));
    FoundAllIff(userIds, Keys(s.users, UserKey));
  }

  /** As many of `ids` are found in `keys` as `ids` has entries exactly when all are found and none repeats. */
  lemma FoundAllIff(ids: seq<Id>, keys: set<Id>)
    ensures |keys * IdSet(ids)| == |ids| <==> AllDistinct(ids) && forall id | id in ids :: id in keys
  {
    var wanted := IdSet(ids);
    var found := keys * wanted;
    DistinctCount(ids);
    SubsetCount(found, wanted);
    if forall id | id in ids :: id in keys {
      assert found == wanted;
    }
    if |found| == |ids| {
      assert found == wanted;
      forall id | id in ids ensures id in keys {
        assert id in wanted;
      }
    }
  }

  /**
   * With the manager present, creation succeeds exactly when the listed users
   * pass the check above and the default state names a catalog entry.
   */
  lemma CreateProjectMemberCheck(s: Store, dto: CreateProjectDto, managerId: Id, now: nat)
    requires UniqueKeys(s.users, UserKey)
    requires HasUser(s, managerId)
    ensures CreateProject(s, dto, managerId, now).Ok? <==>
      && HasState(s, s.defaultStateId)
      && AllDistinct(dto.userIds) && (forall id | id in dto.userIds :: HasUser(s, id))
  {
    ListedUsersCheck(s, dto.userIds);
  }

  /** The id sequence only hands out ids above every existing one. */
  lemma NextProjectIdIsFresh(s: Store)
    requires Valid(s)
    ensures !HasProject(s, s.nextProjectId)
  {
    forall k | k in Keys(s.projects, ProjectKey) ensures k < s.nextProjectId {
      var i :| 0 <= i < |s.projects| && s.projects[i].id == k;
    }
  }

  /**
   * A change confined to the project table keeps the store consistent when it
   * loses no project id, keeps ids unique and below the sequence, and names an
   * existing manager and a catalog state on every row.
   */
  lemma ProjectTableEditPreservesValid(s: Store, s': Store)
    requires Valid(s)
    requires s'.users == s.users && s'.tasks == s.tasks && s'.members == s.members && s'.states == s.states
    requires s'.nextTaskId == s.nextTaskId
    requires Keys(s.projects, ProjectKey) <= Keys(s'.projects, ProjectKey)
    requires UniqueKeys(s'.projects, ProjectKey) && Ascending(s'.projects, ProjectKey)
    requires forall i | 0 <= i < |s'.projects| ::
      s'.projects[i].id < s'.nextProjectId && HasUser(s, s'.projects[i].managerId) && HasState(s, s'.projects[i].stateId)
    ensures Valid(s')
  {
    assert KeysUnique(s');
    assert IdsAscend(s');
    assert IdsBelowSequences(s');
    forall i | 0 <= i < |s'.tasks|
      ensures HasProject(s', s'.tasks[i].projectId) && HasUser(s', s'.tasks[i].userId) && HasState(s', s'.tasks[i].stateId)
    {
      assert HasProject(s, s.tasks[i].projectId) && HasUser(s, s.tasks[i].userId) && HasState(s, s.tasks[i].stateId);
    }
    forall m | m in s'.members ensures HasUser(s', m.0) && HasProject(s', m.1) {
      assert HasUser(s, m.0) && HasProject(s, m.1);
    }
    assert ReferencesResolve(s');
  }

  lemma CreateProjectPreservesValid(s: Store, dto: CreateProjectDto, managerId: Id, now: nat)
    requires Valid(s)
    ensures CreateProject(s, dto, managerId, now).Ok? ==> Valid(CreateProject(s, dto, managerId, now).value.0)
    ensures CreateProject(s, dto, managerId, now).Ok? ==> !HasProject(s, CreateProject(s, dto, managerId, now).value.1.id)
  {
    var r := CreateProject(s, dto, managerId, now);
    if r.Ok? {
      NextProjectIdIsFresh(s);
      AppendProjectPreservesValid(s, r.value.0, r.value.1);
    }
  }

  /**
   * Appending a project under the next sequence id, managed by an existing
   * user and in a catalog state, keeps the store consistent.
   */
  lemma AppendProjectPreservesValid(s: Store, s': Store, p: Project)
    requires Valid(s)
    requires ProjectAppended(s, s', p) && HasUser(s, p.managerId) && HasState(s, p.stateId)
    ensures Valid(s')
  {
    NextProjectIdIsFresh(s);
    AppendKeys(s.projects, ProjectKey, p);
    AppendKeepsUnique(s.projects, ProjectKey, p);
    AppendKeepsAscending(s.projects, ProjectKey, p);
    forall i | 0 <= i < |s'.projects|
      ensures s'.projects[i].id < s'.nextProjectId && HasUser(s, s'.projects[i].managerId) && HasState(s, s'.projects[i].stateId)
    {
      if i < |s.projects| {
        assert s'.projects[i] == s.projects[i];
      } else {
        assert s'.projects[i] == p;
      }
    }
    ProjectTableEditPreservesValid(s, s');
  }

  /**
   * As written, a successful creation leaves the new project without a single
   * membership row, whatever `userIds` listed: the listed users are checked
   * for existence and then dropped.
   */
  lemma CreateProjectGrantsNoMembership(s: Store, dto: CreateProjectDto, managerId: Id, now: nat)
    requires Valid(s)
    ensures CreateProject(s, dto, managerId, now).Ok? ==>
      var (s', p) := CreateProject(s, dto, managerId, now).value;
      forall u :: (u, p.id) !in s'.members
  {
    var r := CreateProject(s, dto, managerId, now);
    if r.Ok? {
      NewProjectHasNoMembers(s);
    }
  }

  /** No membership row of a consistent store names the id the sequence hands out next. */
  lemma NewProjectHasNoMembers(s: Store)
    requires Valid(s)
    ensures forall u :: (u, s.nextProjectId) !in s.members
  {
    NextProjectIdIsFresh(s);
  }

  /** The membership rows a creation request asks for: each listed user in the new project. */
  function InitialMembers(userIds: seq<Id>, projectId: Id): (m: set<(Id, Id)>)
    ensures forall u, pid :: (u, pid) in m <==> u in userIds && pid == projectId
  {
    set u | u in userIds :: (u, projectId)
  }

  /**
   * Project creation that also writes the initial membership set: the same
   * checks and the same project row as `CreateProject`, plus one membership
   * row per listed user, in the same atomic step.
   */
  function CreateProjectWithMembers(s: Store, dto: CreateProjectDto, managerId: Id, now: nat): (r: Result<(Store, Project), Error>)
    ensures r.Err? <==> CreateProject(s, dto, managerId, now).Err?
    ensures r.Err? ==> r.error == CreateProject(s, dto, managerId, now).error
    ensures r.Ok? ==>
      var (s', p) := r.value;
      var (asWritten, q) := CreateProject(s, dto, managerId, now).value;
      && p == q
      && s' == asWritten.(members := s.members + InitialMembers(dto.userIds, p.id))
  {
    match CreateProject(s, dto, managerId, now)
    case Err(e) => Err(e)
    case Ok((s', p)) => Ok((s'.(members := s'.members + InitialMembers(dto.userIds, p.id)), p))
  }

  /** After the corrected creation, the participants of the new project are exactly the listed users. */
  lemma CreateProjectWithMembersGrantsMembership(s: Store, dto: CreateProjectDto, managerId: Id, now: nat)
    requires Valid(s)
    ensures CreateProjectWithMembers(s, dto, managerId, now).Ok? ==>
      var (s', p) := CreateProjectWithMembers(s, dto, managerId, now).value;
      && (forall u :: (u, p.id) in s'.members <==> u in dto.userIds)
      && (forall m | m in s.members :: m in s'.members)
  {
    var r := CreateProjectWithMembers(s, dto, managerId, now);
    if r.Ok? {
      NewProjectHasNoMembers(s);
    }
  }

  /** The corrected creation keeps the store consistent: every new membership row names an existing user and the new project. */
  lemma CreateProjectWithMembersPreservesValid(s: Store, dto: CreateProjectDto, managerId: Id, now: nat)
    requires Valid(s)
    ensures CreateProjectWithMembers(s, dto, managerId, now).Ok? ==>
      Valid(CreateProjectWithMembers(s, dto, managerId, now).value.0)
  {
    var r := CreateProjectWithMembers(s, dto, managerId, now);
    if r.Ok? {
      var (s2, p) := r.value;
      var s1 := CreateProject(s, dto, managerId, now).value.0;
      CreateProjectPreservesValid(s, dto, managerId, now);
      CreateProjectMemberCheck(s, dto, managerId, now);
      NewMembersResolve(s, s1, p, dto.userIds);
      MembershipEditPreservesValid(s1, s2);
    }
  }

  lemma NewMembersResolve(s: Store, s1: Store, p: Project, userIds: seq<Id>)
    requires ReferencesResolve(s) && ProjectAppended(s, s1, p)
    requires forall id | id in userIds :: HasUser(s, id)
    ensures forall m | m in s.members + InitialMembers(userIds, p.id) :: HasUser(s1, m.0) && HasProject(s1, m.1)
  {
    AppendKeys(s.projects, ProjectKey, p);
    forall m | m in s.members + InitialMembers(userIds, p.id) ensures HasUser(s1, m.0) && HasProject(s1, m.1) {
      if m in s.members {
        assert HasUser(s, m.0) && HasProject(s, m.1);
      } else {
        assert m in InitialMembers(userIds, p.id);
        assert m.0 in userIds && m.1 == p.id;
        assert HasUser(s, m.0);
      }
    }
  }

  /** `findAll`: the requested page of all projects, and the number of all projects. */
  function FindAll(s: Store, q: Pagination.PaginationQuery): (r: (seq<Project>, nat))
    requires Pagination.Valid(q)
    ensures r.1 == |s.projects|
    ensures |r.0| <= q.pageSize
    ensures forall i | 0 <= i < |r.0| ::
      0 <= Pagination.Skip(q) + i < |s.projects| && r.0[i] == s.projects[Pagination.Skip(q) + i]
    ensures Pagination.Skip(q) >= |s.projects| ==> |r.0| == 0
    ensures Pagination.Skip(q) < |s.projects| ==>
      |r.0| == if |s.projects| - Pagination.Skip(q) < q.pageSize then |s.projects| - Pagination.Skip(q) else q.pageSize
  {
    (Pagination.Page(s.projects, q), |s.projects|)
  }

  /** With the project table in id order, as in every consistent store, the page lists projects by ascending id. */
  lemma FindAllInIdOrder(s: Store, q: Pagination.PaginationQuery)
    requires IdsAscend(s) && Pagination.Valid(q)
    ensures Ascending(FindAll(s, q).0, ProjectKey)
  {
    WindowKeepsAscending(s.projects, FindAll(s, q).0, ProjectKey, Pagination.Skip(q));
  }

  /** `findOne`: the project with that id, or the not-found error. */
  function FindOne(s: Store, id: Id): (r: Result<Project, Error>)
    ensures r.Ok? <==> HasProject(s, id)
    ensures r.Ok? ==> r.value in s.projects && r.value.id == id
    ensures r.Err? ==> r.error == NotFound(ProjectNotFound)
  {
    match ProjectById(s, id)
    case None => Err(NotFound(ProjectNotFound))
    case Some(p) => Ok(p)
  }

  /**
   * `updateStateOfProject`: the state is resolved before the project is
   * looked up, and a resolved state is written into the project's `stateId`.
   */
  function UpdateStateOfProject(s: Store, projectId: Id, state: string): (r: Result<(Store, Project), Error>)
    ensures (forall i | 0 <= i < |s.states| :: !Text.ContainsIgnoreCase(s.states[i].state, state)) ==>
      r == Err(NotFound(StateNotFound))
    ensures (exists i :: IsFirstMatch(s.states, state, i)) && !HasProject(s, projectId) ==>
      r == Err(NotFound(ProjectNotFound))
    ensures (exists i :: IsFirstMatch(s.states, state, i)) && HasProject(s, projectId) ==> r.Ok?
    ensures r.Ok? ==>
      var (s', p) := r.value;
      && p.id == projectId
      && (exists i :: IsFirstMatch(s.states, state, i) && s.states[i].id == p.stateId)
      && (exists before | before in s.projects :: before.id == projectId && p == before.(stateId := p.stateId))
      && OnlyProjectReplaced(s, s', p)
  {
    match ResolveState(s.states, state)
    case None => Err(NotFound(StateNotFound))
    case Some(st) =>
      match ProjectById(s, projectId)
      case None => Err(NotFound(ProjectNotFound))
      case Some(before) =>
        var p := before.(stateId := st.id);
        Ok((s.(projects := Replace(s.projects, ProjectKey, p)), p))
  }

  /** `updateDateOfModify`: stamps the project's `dateOfModified` with `now`. */
  function UpdateDateOfModify(s: Store, projectId: Id, now: nat): (r: Result<Store, Error>)
    ensures r.Err? <==> !HasProject(s, projectId)
    ensures r.Err? ==> r.error == NotFound(ProjectNotFound)
    ensures r.Ok? ==>
      exists before | before in s.projects ::
        before.id == projectId && OnlyProjectReplaced(s, r.value, before.(dateOfModified := now))
  {
    match ProjectById(s, projectId)
    case None => Err(NotFound(ProjectNotFound))
    case Some(before) =>
      var p := before.(dateOfModified := now);
      Ok(s.(projects := Replace(s.projects, ProjectKey, p)))
  }

  /** Replacing an existing project by a row with the same id and manager, in a catalog state, keeps the store consistent. */
  lemma ReplaceProjectPreservesValid(s: Store, s': Store, before: Project, p: Project)
    requires Valid(s)
    requires before in s.projects && p.id == before.id && p.managerId == before.managerId && HasState(s, p.stateId)
    requires OnlyProjectReplaced(s, s', p)
    ensures Valid(s')
  {
    assert s'.projects == Replace(s.projects, ProjectKey, p);
    ReplaceKeepsKeys(s.projects, ProjectKey, p);
    ReplaceKeepsUnique(s.projects, ProjectKey, p);
    ReplaceKeepsAscending(s.projects, ProjectKey, p);
    forall i | 0 <= i < |s'.projects|
      ensures s'.projects[i].id < s'.nextProjectId && HasUser(s, s'.projects[i].managerId) && HasState(s, s'.projects[i].stateId)
    {
      if s.projects[i].id == p.id {
        var k :| 0 <= k < |s.projects| && s.projects[k] == before;
        assert s'.projects[i] == p;
        assert s.projects[k].managerId == p.managerId;
      } else {
        assert s'.projects[i] == s.projects[i];
      }
    }
    ProjectTableEditPreservesValid(s, s');
  }

  lemma UpdateStateOfProjectPreservesValid(s: Store, projectId: Id, state: string)
    requires Valid(s)
    ensures UpdateStateOfProject(s, projectId, state).Ok? ==> Valid(UpdateStateOfProject(s, projectId, state).value.0)
  {
    var r := UpdateStateOfProject(s, projectId, state);
    if r.Ok? {
      var before :| before in s.projects && before.id == projectId && r.value.1 == before.(stateId := r.value.1.stateId);
      var i :| IsFirstMatch(s.states, state, i) && s.states[i].id == r.value.1.stateId;
      assert StateKey(s.states[i]) in Keys(s.states, StateKey);
      ReplaceProjectPreservesValid(s, r.value.0, before, r.value.1);
    }
  }

  lemma UpdateDateOfModifyPreservesValid(s: Store, projectId: Id, now: nat)
    requires Valid(s)
    ensures UpdateDateOfModify(s, projectId, now).Ok? ==> Valid(UpdateDateOfModify(s, projectId, now).value)
  {
    var r := UpdateDateOfModify(s, projectId, now);
    if r.Ok? {
      var before :| before in s.projects && before.id == projectId && OnlyProjectReplaced(s, r.value, before.(dateOfModified := now));
      var k :| 0 <= k < |s.projects| && s.projects[k] == before;
      ReplaceProjectPreservesValid(s, r.value, before, before.(dateOfModified := now));
    }
  }

  /** `findAllStates`: the whole state catalog. */
  function FindAllStates(s: Store): seq<StateOfProject> {
    s.states
  }

  /** In a consistent store, the state of every project and every task is one `findAllStates` lists. */
  lemma StoredStatesAreListed(s: Store)
    requires Valid(s)
    ensures forall p | p in s.projects :: p.stateId in Keys(FindAllStates(s), StateKey)
    ensures forall t | t in s.tasks :: t.stateId in Keys(FindAllStates(s), StateKey)
  {
    forall p | p in s.projects ensures p.stateId in Keys(FindAllStates(s), StateKey) {
      var i :| 0 <= i < |s.projects| && s.projects[i] == p;
      assert HasState(s, s.projects[i].stateId);
    }
    forall t | t in s.tasks ensures t.stateId in Keys(FindAllStates(s), StateKey) {
      var i :| 0 <= i < |s.tasks| && s.tasks[i] == t;
      assert HasState(s, s.tasks[i].stateId);
    }
  }
}

=== FILE: tables.dfy ===
/**
 * Rows of a store table as a sequence in the store's natural order, each row
 * identified by a key that a named projection (`key`) reads off it. A primary
 * key is a key that is unique in its table.
 */
module Tables {
  import opened Wrappers

  /** The set of keys present in `rows`. */
  function Keys<T>(rows: seq<T>, key: T -> nat): (ks: set<nat>)
    ensures forall i | 0 <= i < |rows| :: key(rows[i]) in ks
    ensures forall k | k in ks :: exists i | 0 <= i < |rows| :: key(rows[i]) == k
  {
    if |rows| == 0 then {} else {key(rows[0])} + Keys(rows[1..], key)
  }

  /** No two rows share a key. */
  ghost predicate UniqueKeys<T>(rows: seq<T>, key: T -> nat) {
    forall i, j | 0 <= i < j < |rows| :: key(rows[i]) != key(rows[j])
  }

  /** Keys strictly increase along the table, the order a primary-key `ORDER BY ... ASC` gives. */
  ghost predicate Ascending<T>(rows: seq<T>, key: T -> nat) {
    forall i, j | 0 <= i < j < |rows| :: key(rows[i]) < key(rows[j])
  }

  /** Point lookup: the first row with key `k`, if any. */
  function Find<T>(rows: seq<T>, key: T -> nat, k: nat): (r: Option<T>)
    ensures r.Some? <==> k in Keys(rows, key)
    ensures r.Some? ==> key(r.value) == k && r.value in rows
  {
    if |rows| == 0 then None
    else if key(rows[0]) == k then Some(rows[0])
    else Find(rows[1..], key, k)
  }

  /** Lookup on two keys: the first row whose `key` is `k` and whose `key2` is `k2`, if any. */
  function FindWhere<T>(rows: seq<T>, key: T -> nat, k: nat, key2: T -> nat, k2: nat): (r: Option<T>)
    ensures r.None? <==> forall i | 0 <= i < |rows| :: !(key(rows[i]) == k && key2(rows[i]) == k2)
    ensures r.Some? ==> exists i | 0 <= i < |rows| :: rows[i] == r.value && key(rows[i]) == k && key2(rows[i]) == k2
  {
    if |rows| == 0 then None
    else if key(rows[0]) == k && key2(rows[0]) == k2 then Some(rows[0])
    else
      var r := FindWhere(rows[1..], key, k, key2, k2);
      assert forall i | 0 < i < |rows| :: rows[i] == rows[1..][i - 1];
      r
  }

  /** Filtered listing: the rows whose key lies in `ks`, in table order. */
  function Select<T>(rows: seq<T>, key: T -> nat, ks: set<nat>): (r: seq<T>)
    ensures |r| <= |rows|
    ensures forall x | x in r :: x in rows && key(x) in ks
    ensures forall i | 0 <= i < |rows| && key(rows[i]) in ks :: rows[i] in r
  {
    if |rows| == 0 then []
    else if key(rows[0]) in ks then
      var rest := Select(rows[1..], key, ks);
      assert ([rows[0]] + rest)[1..] == rest;
      [rows[0]] + rest
    else Select(rows[1..], key, ks)
  }

  /** A selected row's key in any other column is a key of the selection. */
  lemma SelectKeysComplete<T>(rows: seq<T>, key: T -> nat, ks: set<nat>, id: T -> nat, i: nat)
    requires i < |rows| && key(rows[i]) in ks
    ensures id(rows[i]) in Keys(Select(rows, key, ks), id)
  {
    var r := Select(rows, key, ks);
    assert rows[i] in r;
    var j :| 0 <= j < |r| && r[j] == rows[i];
  }

  /** Every key of the selection, in any column, comes from a row whose key was selected; `i` is that row. */
  lemma SelectKeysSound<T>(rows: seq<T>, key: T -> nat, ks: set<nat>, id: T -> nat, k: nat) returns (i: nat)
    requires k in Keys(Select(rows, key, ks), id)
    ensures i < |rows| && id(rows[i]) == k && key(rows[i]) in ks
  {
    var r := Select(rows, key, ks);
    var j :| 0 <= j < |r| && id(r[j]) == k;
    assert r[j] in r;
    i :| 0 <= i < |rows| && rows[i] == r[j];
  }

  /** Delete by key: every row with key `k` goes, every other row stays. */
  function Remove<T>(rows: seq<T>, key: T -> nat, k: nat): (r: seq<T>)
    ensures forall x | x in r :: x in rows && key(x) != k
    ensures forall i | 0 <= i < |rows| && key(rows[i]) != k :: rows[i] in r
    ensures Keys(r, key) == Keys(rows, key) - {k}
  {
    if |rows| == 0 then []
    else if key(rows[0]) == k then Remove(rows[1..], key, k)
    else
      var rest := Remove(rows[1..], key, k);
      assert ([rows[0]] + rest)[1..] == rest;
      [rows[0]] + rest
  }

  /**
   * Delete by key keeps every other row as often as it occurred: the rows
   * kept and the rows a selection on `k` finds together make up the table.
   */
  lemma {:induction false} RemoveSplits<T>(rows: seq<T>, key: T -> nat, k: nat)
    ensures multiset(Remove(rows, key, k)) + multiset(Select(rows, key, {k})) == multiset(rows)
  {
    if |rows| > 0 {
      RemoveSplits(rows[1..], key, k);
      if key(rows[0]) == k {
        SelectTakesHead(rows, key, k);
      } else {
        RemoveKeepsHead(rows, key, k);
      }
    }
  }

  /** Deleting a key no row carries changes nothing. */
  lemma {:induction false} RemoveAbsent<T>(rows: seq<T>, key: T -> nat, k: nat)
    requires k !in Keys(rows, key)
    ensures Remove(rows, key, k) == rows
  {
    if |rows| > 0 {
      assert Keys(rows, key) == {key(rows[0])} + Keys(rows[1..], key);
      RemoveAbsent(rows[1..], key, k);
      assert Remove(rows, key, k) == [rows[0]] + rows[1..];
      assert rows == [rows[0]] + rows[1..];
    }
  }

  /** With unique keys, deleting the key of a row removes that one row and nothing else. */
  lemma {:induction false} RemoveUniqueRow<T>(rows: seq<T>, key: T -> nat, x: T)
    requires UniqueKeys(rows, key)
    requires x in rows
    ensures multiset(Remove(rows, key, key(x))) + multiset{x} == multiset(rows)
  {
    if rows[0] == x {
      RemoveUniqueHead(rows, key);
    } else {
      var j :| 0 <= j < |rows| && rows[j] == x;
      var tail := rows[1..];
      assert tail[j - 1] == x;
      TailKeepsUnique(rows, key);
      RemoveUniqueRow(tail, key, x);
      RemoveKeepsHead(rows, key, key(x));
    }
  }

  /** With unique keys, deleting the first row's key removes exactly that row. */
  lemma RemoveUniqueHead<T>(rows: seq<T>, key: T -> nat)
    requires |rows| > 0 && UniqueKeys(rows, key)
    ensures multiset(Remove(rows, key, key(rows[0]))) + multiset{rows[0]} == multiset(rows)
  {
    HeadKeyFresh(rows, key);
    RemoveAbsent(rows[1..], key, key(rows[0]));
    assert Remove(rows, key, key(rows[0])) == rows[1..];
    assert rows == [rows[0]] + rows[1..];
  }

  /** When the first row carries `k`, deleting `k` drops it and a selection on `k` keeps it in front. */
  lemma SelectTakesHead<T>(rows: seq<T>, key: T -> nat, k: nat)
    requires |rows| > 0 && key(rows[0]) == k
    ensures Remove(rows, key, k) == Remove(rows[1..], key, k)
    ensures multiset(Select(rows, key, {k})) == multiset{rows[0]} + multiset(Select(rows[1..], key, {k}))
    ensures multiset(rows) == multiset{rows[0]} + multiset(rows[1..])
  {
    assert Select(rows, key, {k}) == [rows[0]] + Select(rows[1..], key, {k});
    assert rows == [rows[0]] + rows[1..];
  }

  /** Deleting a key the first row does not carry keeps that row in front, and the multiset follows. */
  lemma RemoveKeepsHead<T>(rows: seq<T>, key: T -> nat, k: nat)
    requires |rows| > 0 && key(rows[0]) != k
    ensures multiset(Remove(rows, key, k)) == multiset{rows[0]} + multiset(Remove(rows[1..], key, k))
    ensures multiset(rows) == multiset{rows[0]} + multiset(rows[1..])
  {
    assert Remove(rows, key, k) == [rows[0]] + Remove(rows[1..], key, k);
    assert rows == [rows[0]] + rows[1..];
  }

  lemma TailKeepsUnique<T>(rows: seq<T>, key: T -> nat)
    requires |rows| > 0 && UniqueKeys(rows, key)
    ensures UniqueKeys(rows[1..], key)
  {
    forall i, j | 0 <= i < j < |rows| - 1 ensures key(rows[1..][i]) != key(rows[1..][j]) {
      assert rows[1..][i] == rows[i + 1] && rows[1..][j] == rows[j + 1];
    }
  }

  /** Update by key: the rows whose key is `key(row)` become `row`. */
  function Replace<T>(rows: seq<T>, key: T -> nat, row: T): (r: seq<T>)
    ensures |r| == |rows|
    ensures forall i | 0 <= i < |rows| :: r[i] == if key(rows[i]) == key(row) then row else rows[i]
  {
    seq(|rows|, i requires 0 <= i < |rows| => if key(rows[i]) == key(row) then row else rows[i])
  }

  lemma ReplaceKeepsKeys<T>(rows: seq<T>, key: T -> nat, row: T)
    requires key(row) in Keys(rows, key)
    ensures Keys(Replace(rows, key, row), key) == Keys(rows, key)
  {
    ReplacedKeysWereThere(rows, key, row);
    ReplaceLosesNoKey(rows, key, row);
  }

  lemma ReplacedKeysWereThere<T>(rows: seq<T>, key: T -> nat, row: T)
    requires key(row) in Keys(rows, key)
    ensures forall k | k in Keys(Replace(rows, key, row), key) :: k in Keys(rows, key)
  {
    var r := Replace(rows, key, row);
    forall k | k in Keys(r, key) ensures k in Keys(rows, key) {
      var i :| 0 <= i < |r| && key(r[i]) == k;
      assert key(r[i]) == key(rows[i]);
    }
  }

  lemma ReplaceLosesNoKey<T>(rows: seq<T>, key: T -> nat, row: T)
    ensures forall k | k in Keys(rows, key) :: k in Keys(Replace(rows, key, row), key)
  {
    var r := Replace(rows, key, row);
    forall k | k in Keys(rows, key) ensures k in Keys(r, key) {
      var i :| 0 <= i < |rows| && key(rows[i]) == k;
      assert key(r[i]) == k;
    }
  }

  lemma ReplaceKeepsUnique<T>(rows: seq<T>, key: T -> nat, row: T)
    requires UniqueKeys(rows, key)
    ensures UniqueKeys(Replace(rows, key, row), key)
  {
  }

  /** A table with unique keys has as many keys as rows. */
  lemma {:induction false} UniqueKeysCount<T>(rows: seq<T>, key: T -> nat)
    requires UniqueKeys(rows, key)
    ensures |Keys(rows, key)| == |rows|
  {
    if |rows| > 0 {
      UniqueKeysCount(rows[1..], key);
      assert key(rows[0]) !in Keys(rows[1..], key);
    }
  }

  /** In a table with unique keys, the first row's key is absent from the rest. */
  lemma HeadKeyFresh<T>(rows: seq<T>, key: T -> nat)
    requires |rows| > 0 && UniqueKeys(rows, key)
    ensures key(rows[0]) !in Keys(rows[1..], key)
  {
    forall k | k in Keys(rows[1..], key) ensures k != key(rows[0]) {
      var i :| 0 <= i < |rows[1..]| && key(rows[1..][i]) == k;
      assert rows[1..][i] == rows[i + 1];
    }
  }

  /** Prepending a row whose key is new keeps keys unique. */
  lemma ConsKeepsUnique<T>(row: T, rest: seq<T>, key: T -> nat)
    requires UniqueKeys(rest, key) && key(row) !in Keys(rest, key)
    ensures UniqueKeys([row] + rest, key)
  {
    var r := [row] + rest;
    forall i, j | 0 <= i < j < |r| ensures key(r[i]) != key(r[j]) {
      assert r[j] == rest[j - 1];
      if i > 0 {
        assert r[i] == rest[i - 1];
      }
    }
  }

  /** A selection is a subsequence, so it keeps any key unique that was unique before. */
  lemma {:induction false} SelectKeepsUnique<T>(rows: seq<T>, key: T -> nat, ks: set<nat>, id: T -> nat)
    requires UniqueKeys(rows, id)
    ensures UniqueKeys(Select(rows, key, ks), id)
  {
    if |rows| > 0 {
      SelectKeepsUnique(rows[1..], key, ks, id);
      if key(rows[0]) in ks {
        HeadKeyFresh(rows, id);
        var rest := Select(rows[1..], key, ks);
        forall k | k in Keys(rest, id) ensures k in Keys(rows[1..], id) {
          var i :| 0 <= i < |rest| && id(rest[i]) == k;
          assert rest[i] in rest;
          var j :| 0 <= j < |rows[1..]| && rows[1..][j] == rest[i];
        }
        ConsKeepsUnique(rows[0], rest, id);
      }
    }
  }

  /** Over a primary key, a selection has one row per selected key present. */
  lemma SelectCount<T>(rows: seq<T>, key: T -> nat, ks: set<nat>)
    requires UniqueKeys(rows, key)
    ensures |Select(rows, key, ks)| == |Keys(rows, key) * ks|
  {
    SelectKeepsUnique(rows, key, ks, key);
    UniqueKeysCount(Select(rows, key, ks), key);
    SelectKeys(rows, key, ks);
  }

  /** The keys of a selection are the selected keys that occur in the table. */
  lemma SelectKeys<T>(rows: seq<T>, key: T -> nat, ks: set<nat>)
    ensures Keys(Select(rows, key, ks), key) == Keys(rows, key) * ks
  {
    SelectedKeysOccur(rows, key, ks);
    OccurringKeysSelected(rows, key, ks);
  }

  lemma SelectedKeysOccur<T>(rows: seq<T>, key: T -> nat, ks: set<nat>)
    ensures forall k | k in Keys(Select(rows, key, ks), key) :: k in Keys(rows, key) * ks
  {
    forall k | k in Keys(Select(rows, key, ks), key) ensures k in Keys(rows, key) * ks {
      var i := SelectKeysSound(rows, key, ks, key, k);
    }
  }

  lemma OccurringKeysSelected<T>(rows: seq<T>, key: T -> nat, ks: set<nat>)
    ensures forall k | k in Keys(rows, key) * ks :: k in Keys(Select(rows, key, ks), key)
  {
    forall k | k in Keys(rows, key) * ks ensures k in Keys(Select(rows, key, ks), key) {
      var i :| 0 <= i < |rows| && key(rows[i]) == k;
      SelectKeysComplete(rows, key, ks, key, i);
    }
  }

  lemma {:induction false} RemoveKeepsUnique<T>(rows: seq<T>, key: T -> nat, k: nat)
    requires UniqueKeys(rows, key)
    ensures UniqueKeys(Remove(rows, key, k), key)
  {
    if |rows| > 0 {
      RemoveKeepsUnique(rows[1..], key, k);
      if key(rows[0]) != k {
        HeadKeyFresh(rows, key);
        ConsKeepsUnique(rows[0], Remove(rows[1..], key, k), key);
      }
    }
  }

  lemma AppendKeys<T>(rows: seq<T>, key: T -> nat, row: T)
    ensures Keys(rows + [row], key) == Keys(rows, key) + {key(row)}
  {
    var r := rows + [row];
    forall k | k in Keys(r, key) ensures k in Keys(rows, key) + {key(row)} {
      var i :| 0 <= i < |r| && key(r[i]) == k;
      if i < |rows| {
        assert r[i] == rows[i];
      }
    }
    forall k | k in Keys(rows, key) ensures k in Keys(r, key) {
      var i :| 0 <= i < |rows| && key(rows[i]) == k;
      assert r[i] == rows[i];
    }
    assert r[|rows|] == row;
  }

  lemma AppendKeepsUnique<T>(rows: seq<T>, key: T -> nat, row: T)
    requires UniqueKeys(rows, key)
    requires key(row) !in Keys(rows, key)
    ensures UniqueKeys(rows + [row], key)
  {
    var r := rows + [row];
    forall i, j | 0 <= i < j < |r| ensures key(r[i]) != key(r[j]) {
      assert r[i] == rows[i];
      if j < |rows| {
        assert r[j] == rows[j];
      }
    }
  }

  /** Under a primary key, the row `Find` returns is the only row with that key. */
  lemma FindUnique<T>(rows: seq<T>, key: T -> nat, x: T)
    requires UniqueKeys(rows, key)
    requires x in rows
    ensures Find(rows, key, key(x)) == Some(x)
  {
    var r := Find(rows, key, key(x));
    var i :| 0 <= i < |rows| && rows[i] == x;
    var j :| 0 <= j < |rows| && rows[j] == r.value;
    assert key(rows[j]) == key(rows[i]);
  }

  /** Prepending a row whose key is below every key of an ascending table keeps it ascending. */
  lemma ConsKeepsAscending<T>(row: T, rest: seq<T>, key: T -> nat)
    requires Ascending(rest, key)
    requires forall x | x in rest :: key(row) < key(x)
    ensures Ascending([row] + rest, key)
  {
    var r := [row] + rest;
    forall i, j | 0 <= i < j < |r| ensures key(r[i]) < key(r[j]) {
      assert r[j] == rest[j - 1];
      if i > 0 {
        assert r[i] == rest[i - 1];
      }
    }
  }

  /** In an ascending table, the first row's key is below every later row's key. */
  lemma HeadBelowTail<T>(rows: seq<T>, key: T -> nat)
    requires |rows| > 0 && Ascending(rows, key)
    ensures Ascending(rows[1..], key)
    ensures forall x | x in rows[1..] :: key(rows[0]) < key(x)
  {
    forall i, j | 0 <= i < j < |rows| - 1 ensures key(rows[1..][i]) < key(rows[1..][j]) {
      assert rows[1..][i] == rows[i + 1] && rows[1..][j] == rows[j + 1];
    }
    forall x | x in rows[1..] ensures key(rows[0]) < key(x) {
      var j :| 0 <= j < |rows[1..]| && rows[1..][j] == x;
      assert rows[j + 1] == x;
    }
  }

  /** A selection is a subsequence, so it keeps an ascending order on any key. */
  lemma {:induction false} SelectKeepsAscending<T>(rows: seq<T>, key: T -> nat, ks: set<nat>, id: T -> nat)
    requires Ascending(rows, id)
    ensures Ascending(Select(rows, key, ks), id)
  {
    if |rows| > 0 {
      HeadBelowTail(rows, id);
      SelectKeepsAscending(rows[1..], key, ks, id);
      if key(rows[0]) in ks {
        ConsKeepsAscending(rows[0], Select(rows[1..], key, ks), id);
      }
    }
  }

  /** Delete by key keeps the remaining rows in their order. */
  lemma {:induction false} RemoveKeepsAscending<T>(rows: seq<T>, key: T -> nat, k: nat)
    requires Ascending(rows, key)
    ensures Ascending(Remove(rows, key, k), key)
  {
    if |rows| > 0 {
      HeadBelowTail(rows, key);
      RemoveKeepsAscending(rows[1..], key, k);
      if key(rows[0]) != k {
        ConsKeepsAscending(rows[0], Remove(rows[1..], key, k), key);
      }
    }
  }

  /** Update by key leaves every key where it was. */
  lemma ReplaceKeepsAscending<T>(rows: seq<T>, key: T -> nat, row: T)
    requires Ascending(rows, key)
    ensures Ascending(Replace(rows, key, row), key)
  {
    var r := Replace(rows, key, row);
    forall i, j | 0 <= i < j < |r| ensures key(r[i]) < key(r[j]) {
      assert key(r[i]) == key(rows[i]) && key(r[j]) == key(rows[j]);
    }
  }

  /** Appending a row whose key is above every key keeps the table ascending. */
  lemma AppendKeepsAscending<T>(rows: seq<T>, key: T -> nat, row: T)
    requires Ascending(rows, key)
    requires forall i | 0 <= i < |rows| :: key(rows[i]) < key(row)
    ensures Ascending(rows + [row], key)
  {
    var r := rows + [row];
    forall i, j | 0 <= i < j < |r| ensures key(r[i]) < key(r[j]) {
      assert r[i] == rows[i];
      if j < |rows| {
        assert r[j] == rows[j];
      }
    }
  }

  /** A selection from an ascending table, and any window of it, stays ascending. */
  lemma SelectionWindowAscends<T>(rows: seq<T>, key: T -> nat, ks: set<nat>, id: T -> nat, window: seq<T>, offset: int)
    requires Ascending(rows, id)
    requires forall i | 0 <= i < |window| ::
      0 <= offset + i < |Select(rows, key, ks)| && window[i] == Select(rows, key, ks)[offset + i]
    ensures Ascending(Select(rows, key, ks), id)
    ensures Ascending(window, id)
  {
    var sel := Select(rows, key, ks);
    SelectKeepsAscending(rows, key, ks, id);
    forall i, j | 0 <= i < j < |window| ensures id(window[i]) < id(window[j]) {
      var wi, wj := window[i], window[j];
      assert 0 <= offset + i < |sel| && wi == sel[offset + i];
      assert 0 <= offset + j < |sel| && wj == sel[offset + j];
    }
  }

  /** A contiguous window of an ascending table is ascending. */
  lemma WindowKeepsAscending<T>(rows: seq<T>, window: seq<T>, key: T -> nat, offset: int)
    requires Ascending(rows, key)
    requires forall i | 0 <= i < |window| :: 0 <= offset + i < |rows| && window[i] == rows[offset + i]
    ensures Ascending(window, key)
  {
  }
}

=== FILE: tasks.dfy ===
/**
 * Task lifecycle inside a project: paginated listing, lookup, creation by a
 * project member (which also stamps the project as modified), deletion and
 * state change through the state catalog.
 */
module Tasks {
  import opened Wrappers
  import opened Tables
  import opened Database
  import Text
  import Pagination
  import Projects
  import ProjectUsers

  /** The body of a task creation request. */
  datatype CreateTaskDto = CreateTaskDto(name: string, description: string, userId: Id)

  /** The tasks of a project, in table order. */
  function ProjectTasks(s: Store, projectId: Id): seq<Task> {
    Select(s.tasks, TaskProjectKey, {projectId})
  }

  /**
   * With the task table in id order, as in every consistent store, a
   * project's task listing and so every page of it lists tasks by ascending id.
   */
  lemma GetTasksInIdOrder(s: Store, projectId: Id, q: Pagination.PaginationQuery)
    requires IdsAscend(s) && Pagination.Valid(q)
    ensures Ascending(ProjectTasks(s, projectId), TaskKey)
    ensures GetTasks(s, projectId, q).Ok? ==> Ascending(GetTasks(s, projectId, q).value.0, TaskKey)
  {
    SelectKeepsAscending(s.tasks, TaskProjectKey, {projectId}, TaskKey);
    var r := GetTasks(s, projectId, q);
    if r.Ok? {
      WindowKeepsAscending(ProjectTasks(s, projectId), r.value.0, TaskKey, Pagination.Skip(q));
    }
  }

  /** `getTasks`: the requested page of the project's tasks, and how many tasks it has. */
  function GetTasks(s: Store, projectId: Id, q: Pagination.PaginationQuery): (r: Result<(seq<Task>, nat), Error>)
    requires Pagination.Valid(q)
    ensures r.Err? <==> !HasProject(s, projectId)
    ensures r.Err? ==> r.error == NotFound(ProjectNotFound)
    ensures r.Ok? ==> |r.value.0| <= q.pageSize && |r.value.0| <= r.value.1
    ensures r.Ok? ==> forall i | 0 <= i < |r.value.0| ::
      r.value.0[i] in s.tasks && r.value.0[i].projectId == projectId
    ensures r.Ok? ==> r.value.1 == |ProjectTasks(s, projectId)|
    ensures r.Ok? ==> forall i | 0 <= i < |r.value.0| ::
      0 <= Pagination.Skip(q) + i < |ProjectTasks(s, projectId)|
      && r.value.0[i] == ProjectTasks(s, projectId)[Pagination.Skip(q) + i]
    ensures r.Ok? && Pagination.Skip(q) >= r.value.1 ==> |r.value.0| == 0
    ensures r.Ok? && Pagination.Skip(q) < r.value.1 ==>
      |r.value.0| == if r.value.1 - Pagination.Skip(q) < q.pageSize then r.value.1 - Pagination.Skip(q) else q.pageSize
  {
    match Projects.FindOne(s, projectId)
    case Err(e) => Err(e)
    case Ok(_) =>
      var all := ProjectTasks(s, projectId);
      PageOfTasks(s, projectId, q);
      Ok((Pagination.Page(all, q), |all|))
  }

  lemma PageOfTasks(s: Store, projectId: Id, q: Pagination.PaginationQuery)
    requires Pagination.Valid(q)
    ensures |Pagination.Page(ProjectTasks(s, projectId), q)| <= |ProjectTasks(s, projectId)|
    ensures forall i | 0 <= i < |Pagination.Page(ProjectTasks(s, projectId), q)| ::
      Pagination.Page(ProjectTasks(s, projectId), q)[i] in s.tasks
      && Pagination.Page(ProjectTasks(s, projectId), q)[i].projectId == projectId
  {
    var all := ProjectTasks(s, projectId);
    var page := Pagination.Page(all, q);
    Pagination.ValidQueryBounds(q);
    forall i | 0 <= i < |page| ensures page[i] in s.tasks && page[i].projectId == projectId {
      var t := all[Pagination.Skip(q) + i];
      assert t in all;
      assert TaskProjectKey(t) in {projectId};
    }
  }

  /** Some task carries both this id and this project. */
  predicate HasTaskInProject(s: Store, projectId: Id, taskId: Id) {
    exists i | 0 <= i < |s.tasks| :: s.tasks[i].id == taskId && s.tasks[i].projectId == projectId
  }

  /** The ids of the tasks of a project. */
  function ProjectTaskIds(s: Store, projectId: Id): (ids: set<Id>)
    ensures forall id :: id in ids <==> HasTaskInProject(s, projectId, id)
  {
    set i | 0 <= i < |s.tasks| && s.tasks[i].projectId == projectId :: s.tasks[i].id
  }

  /** The listing of a project's tasks carries exactly the ids of its tasks. */
  lemma ProjectTasksKeys(s: Store, projectId: Id)
    ensures Keys(ProjectTasks(s, projectId), TaskKey) == ProjectTaskIds(s, projectId)
  {
    ListedTasksHaveProject(s, projectId);
    ProjectTasksAreListed(s, projectId);
  }

  lemma ListedTasksHaveProject(s: Store, projectId: Id)
    ensures forall k | k in Keys(ProjectTasks(s, projectId), TaskKey) :: k in ProjectTaskIds(s, projectId)
  {
    forall k | k in Keys(ProjectTasks(s, projectId), TaskKey) ensures k in ProjectTaskIds(s, projectId) {
      ListedTaskHasProject(s, projectId, k);
    }
  }

  lemma ListedTaskHasProject(s: Store, projectId: Id, k: nat)
    requires k in Keys(ProjectTasks(s, projectId), TaskKey)
    ensures HasTaskInProject(s, projectId, k)
  {
    var i := SelectKeysSound(s.tasks, TaskProjectKey, {projectId}, TaskKey, k);
    TaskAtIndexInProject(s, projectId, k, i);
  }

  lemma TaskAtIndexInProject(s: Store, projectId: Id, k: nat, i: nat)
    requires i < |s.tasks| && TaskKey(s.tasks[i]) == k && TaskProjectKey(s.tasks[i]) in {projectId}
    ensures HasTaskInProject(s, projectId, k)
  {
    assert s.tasks[i].id == k && s.tasks[i].projectId == projectId;
  }

  lemma ProjectTasksAreListed(s: Store, projectId: Id)
    ensures forall k | k in ProjectTaskIds(s, projectId) :: k in Keys(ProjectTasks(s, projectId), TaskKey)
  {
    forall k | k in ProjectTaskIds(s, projectId) ensures k in Keys(ProjectTasks(s, projectId), TaskKey) {
      var i :| 0 <= i < |s.tasks| && s.tasks[i].id == k && s.tasks[i].projectId == projectId;
      SelectKeysComplete(s.tasks, TaskProjectKey, {projectId}, TaskKey, i);
    }
  }

  /** With unique task ids the total of the task listing is the number of tasks the project has. */
  lemma GetTasksCountsProjectTasks(s: Store, projectId: Id, q: Pagination.PaginationQuery)
    requires UniqueKeys(s.tasks, TaskKey) && Pagination.Valid(q)
    ensures GetTasks(s, projectId, q).Ok? ==> GetTasks(s, projectId, q).value.1 == |ProjectTaskIds(s, projectId)|
  {
    ProjectTaskCount(s, projectId);
  }

  lemma ProjectTaskCount(s: Store, projectId: Id)
    requires UniqueKeys(s.tasks, TaskKey)
    ensures |ProjectTasks(s, projectId)| == |ProjectTaskIds(s, projectId)|
  {
    SelectKeepsUnique(s.tasks, TaskProjectKey, {projectId}, TaskKey);
    UniqueKeysCount(ProjectTasks(s, projectId), TaskKey);
    ProjectTasksKeys(s, projectId);
  }

  /** `getTaskById`: the task with that id, provided it belongs to the project. */
  function GetTaskById(s: Store, projectId: Id, taskId: Id): (r: Result<Task, Error>)
    ensures r.Ok? <==> HasTaskInProject(s, projectId, taskId)
    ensures r.Ok? ==> r.value in s.tasks && r.value.id == taskId && r.value.projectId == projectId
    ensures r.Err? ==> r.error == NotFound(TaskNotFound)
  {
    match FindWhere(s.tasks, TaskKey, taskId, TaskProjectKey, projectId)
    case None => Err(NotFound(TaskNotFound))
    case Some(t) => Ok(t)
  }

  /**
   * `createTask`: the assignee must be a member of the project; then the task
   * is inserted and the project's `dateOfModified` stamped in one atomic step.
   */
  function CreateTask(s: Store, dto: CreateTaskDto, projectId: Id, now: nat): (r: Result<(Store, Task), Error>)
    ensures !HasProject(s, projectId) ==> r == Err(NotFound(ProjectNotFound))
    ensures HasProject(s, projectId) && (!HasUser(s, dto.userId) || (dto.userId, projectId) !in s.members) ==>
      r == Err(NotFound(UserNotInProject))
    ensures (HasProject(s, projectId) && HasUser(s, dto.userId) && (dto.userId, projectId) in s.members
      && !HasState(s, s.defaultStateId)) ==> r == Err(BadRequest(InvalidRelation))
    ensures (HasProject(s, projectId) && HasUser(s, dto.userId) && (dto.userId, projectId) in s.members
      && HasState(s, s.defaultStateId)) ==> r.Ok?
    ensures r.Ok? ==>
      var (s', t) := r.value;
      && HasState(s, t.stateId)
      && t.id == s.nextTaskId && t.name == dto.name && t.description == dto.description
      && t.userId == dto.userId && t.projectId == projectId && t.stateId == s.defaultStateId
      && (exists before | before in s.projects ::
            && before.id == projectId
            && Projects.OnlyProjectReplaced(
                 s.(tasks := s.tasks + [t], nextTaskId := s.nextTaskId + 1), s', before.(dateOfModified := now)))
  {
    var _ :- ProjectUsers.FindOne(s, projectId, dto.userId);
    if !HasState(s, s.defaultStateId) then Err(BadRequest(InvalidRelation)) else
    var t := Task(s.nextTaskId, dto.name, dto.description, dto.userId, projectId, s.defaultStateId);
    var withTask := s.(tasks := s.tasks + [t], nextTaskId := s.nextTaskId + 1);
    var stamped := Projects.UpdateDateOfModify(withTask, projectId, now);
    assert HasProject(withTask, projectId);
    Ok((stamped.value, t))
  }

  /** `after` is `before` with the date of modification of project `projectId` set to `now`, and nothing else changed. */
  ghost predicate Stamped(before: seq<Project>, after: seq<Project>, projectId: Id, now: nat) {
    && |after| == |before|
    && forall i | 0 <= i < |before| ::
         after[i] == if before[i].id == projectId then before[i].(dateOfModified := now) else before[i]
  }

  /** A task insertion leaves the users, memberships, catalog and every project other than the stamped one alone. */
  lemma CreateTaskFrame(s: Store, dto: CreateTaskDto, projectId: Id, now: nat)
    requires UniqueKeys(s.projects, ProjectKey)
    ensures CreateTask(s, dto, projectId, now).Ok? ==> (dto.userId, projectId) in s.members
    ensures CreateTask(s, dto, projectId, now).Ok? ==>
      CreateTask(s, dto, projectId, now).value.0 ==
        s.(tasks := s.tasks + [CreateTask(s, dto, projectId, now).value.1], nextTaskId := s.nextTaskId + 1,
           projects := CreateTask(s, dto, projectId, now).value.0.projects)
    ensures CreateTask(s, dto, projectId, now).Ok? ==>
      Stamped(s.projects, CreateTask(s, dto, projectId, now).value.0.projects, projectId, now)
  {
    var r := CreateTask(s, dto, projectId, now);
    if r.Ok? {
      var (s', t) := r.value;
      var withTask := s.(tasks := s.tasks + [t], nextTaskId := s.nextTaskId + 1);
      assert s' == Projects.UpdateDateOfModify(withTask, projectId, now).value;
      StampOnlyTouchesProject(s, withTask, s', projectId, now);
    }
  }

  /** Stamping one project of a store with unique project ids changes that project's date and nothing else. */
  lemma StampOnlyTouchesProject(s: Store, withTask: Store, s': Store, projectId: Id, now: nat)
    requires UniqueKeys(s.projects, ProjectKey)
    requires withTask.projects == s.projects
    requires exists before | before in s.projects ::
      && before.id == projectId
      && Projects.OnlyProjectReplaced(withTask, s', before.(dateOfModified := now))
    ensures s' == withTask.(projects := s'.projects)
    ensures Stamped(s.projects, s'.projects, projectId, now)
  {
    var before :| before in s.projects && before.id == projectId
      && Projects.OnlyProjectReplaced(withTask, s', before.(dateOfModified := now));
    var k :| 0 <= k < |s.projects| && s.projects[k] == before;
    forall i | 0 <= i < |s.projects| && s.projects[i].id == projectId
      ensures s'.projects[i] == s.projects[i].(dateOfModified := now)
    {
      assert i == k;
    }
  }

  /** `deleteTask`: removes the task with that id, whatever project the call names. */
  function DeleteTask(s: Store, projectId: Id, taskId: Id): (r: Result<(Store, Task), Error>)
    ensures r.Err? <==> !HasTask(s, taskId)
    ensures r.Err? ==> r.error == NotFound(ProjectNotFound)
    ensures r.Ok? ==>
      var (s', t) := r.value;
      && t in s.tasks && t.id == taskId
      && s' == s.(tasks := s'.tasks)
      && (forall x | x in s'.tasks :: x in s.tasks && x.id != taskId)
      && (forall i | 0 <= i < |s.tasks| && s.tasks[i].id != taskId :: s.tasks[i] in s'.tasks)
    ensures r.Ok? ==> multiset(r.value.0.tasks) + multiset(Select(s.tasks, TaskKey, {taskId})) == multiset(s.tasks)
    ensures r.Ok? && UniqueKeys(s.tasks, TaskKey) ==> multiset(r.value.0.tasks) + multiset{r.value.1} == multiset(s.tasks)
  {
    match TaskById(s, taskId)
    case None => Err(NotFound(ProjectNotFound))
    case Some(t) =>
      assert UniqueKeys(s.tasks, TaskKey) ==>
        multiset(Remove(s.tasks, TaskKey, taskId)) + multiset{t} == multiset(s.tasks) by {
        if UniqueKeys(s.tasks, TaskKey) {
          RemoveUniqueRow(s.tasks, TaskKey, t);
        }
      }
      RemoveSplits(s.tasks, TaskKey, taskId);
      Ok((s.(tasks := Remove(s.tasks, TaskKey, taskId)), t))
  }

  /** The project argument of `deleteTask` has no effect on the outcome. */
  lemma DeleteTaskIgnoresProject(s: Store, p1: Id, p2: Id, taskId: Id)
    ensures DeleteTask(s, p1, taskId) == DeleteTask(s, p2, taskId)
  {
  }

  /** As written, a call naming one project deletes a task that belongs to another. */
  lemma DeleteTaskCrossesProjects(s: Store, projectId: Id, t: Task)
    requires UniqueKeys(s.tasks, TaskKey)
    requires t in s.tasks && t.projectId != projectId
    ensures DeleteTask(s, projectId, t.id).Ok?
    ensures !HasTaskInProject(s, projectId, t.id)
    ensures DeleteTaskInProject(s, projectId, t.id) == Err(NotFound(TaskNotFound))
  {
    var k :| 0 <= k < |s.tasks| && s.tasks[k] == t;
    assert HasTask(s, t.id);
    forall i | 0 <= i < |s.tasks| && s.tasks[i].id == t.id ensures s.tasks[i].projectId != projectId {
      assert i == k;
    }
  }

  /** `deleteTask` restricted to the tasks of the named project, as every other task operation is. */
  function DeleteTaskInProject(s: Store, projectId: Id, taskId: Id): (r: Result<(Store, Task), Error>)
    ensures r.Ok? <==> HasTaskInProject(s, projectId, taskId)
    ensures r.Err? ==> r.error == NotFound(TaskNotFound)
    ensures r.Ok? ==>
      var (s', t) := r.value;
      && t in s.tasks && t.id == taskId && t.projectId == projectId
      && s' == s.(tasks := s'.tasks)
      && (forall x | x in s'.tasks :: x in s.tasks && x.id != taskId)
      && (forall i | 0 <= i < |s.tasks| && s.tasks[i].id != taskId :: s.tasks[i] in s'.tasks)
    ensures r.Ok? ==> multiset(r.value.0.tasks) + multiset(Select(s.tasks, TaskKey, {taskId})) == multiset(s.tasks)
    ensures r.Ok? && UniqueKeys(s.tasks, TaskKey) ==> multiset(r.value.0.tasks) + multiset{r.value.1} == multiset(s.tasks)
  {
    match GetTaskById(s, projectId, taskId)
    case Err(e) => Err(e)
    case Ok(t) =>
      assert UniqueKeys(s.tasks, TaskKey) ==>
        multiset(Remove(s.tasks, TaskKey, taskId)) + multiset{t} == multiset(s.tasks) by {
        if UniqueKeys(s.tasks, TaskKey) {
          RemoveUniqueRow(s.tasks, TaskKey, t);
        }
      }
      RemoveSplits(s.tasks, TaskKey, taskId);
      Ok((s.(tasks := Remove(s.tasks, TaskKey, taskId)), t))
  }

  /** With unique task ids, the corrected deletion never touches a task of another project. */
  lemma DeleteTaskInProjectSparesOtherProjects(s: Store, projectId: Id, taskId: Id, x: Task)
    requires UniqueKeys(s.tasks, TaskKey)
    requires DeleteTaskInProject(s, projectId, taskId).Ok?
    requires x in s.tasks && x.projectId != projectId
    ensures x in DeleteTaskInProject(s, projectId, taskId).value.0.tasks
  {
    var t := DeleteTaskInProject(s, projectId, taskId).value.1;
    var i :| 0 <= i < |s.tasks| && s.tasks[i] == x;
    var j :| 0 <= j < |s.tasks| && s.tasks[j] == t;
    assert i != j;
    assert s.tasks[i].id != taskId;
  }

  /**
   * `updateStateOfTask`: the state is resolved before the task is looked up
   * by id and project, and a resolved state is written into the task's
   * `stateId`; no project is stamped as modified.
   */
  function UpdateStateOfTask(s: Store, projectId: Id, taskId: Id, state: string): (r: Result<(Store, Task), Error>)
    ensures (forall i | 0 <= i < |s.states| :: !Text.ContainsIgnoreCase(s.states[i].state, state)) ==>
      r == Err(NotFound(StateNotFound))
    ensures ((exists i :: IsFirstMatch(s.states, state, i)) && !HasTaskInProject(s, projectId, taskId)) ==>
      r == Err(NotFound(TaskNotFound))
    ensures (exists i :: IsFirstMatch(s.states, state, i)) && HasTaskInProject(s, projectId, taskId) ==> r.Ok?
    ensures r.Ok? ==>
      var (s', t) := r.value;
      && t.id == taskId && t.projectId == projectId
      && (exists i :: IsFirstMatch(s.states, state, i) && s.states[i].id == t.stateId)
      && (exists before | before in s.tasks :: before.id == taskId && before.projectId == projectId
            && t == before.(stateId := t.stateId))
      && s' == s.(tasks := s'.tasks)
      && |s'.tasks| == |s.tasks|
      && forall i | 0 <= i < |s.tasks| :: s'.tasks[i] == if s.tasks[i].id == taskId then t else s.tasks[i]
  {
    match ResolveState(s.states, state)
    case None => Err(NotFound(StateNotFound))
    case Some(st) =>
      match GetTaskById(s, projectId, taskId)
      case Err(e) => Err(e)
      case Ok(before) =>
        var t := before.(stateId := st.id);
        Ok((s.(tasks := Replace(s.tasks, TaskKey, t)), t))
  }

  /**
   * A change confined to the task table keeps the store consistent when ids
   * stay unique and below the sequence, and every row names an existing
   * project and user.
   */
  lemma TaskTableEditPreservesValid(s: Store, s': Store)
    requires Valid(s)
    requires s'.users == s.users && s'.projects == s.projects && s'.members == s.members && s'.states == s.states
    requires s'.nextProjectId == s.nextProjectId
    requires UniqueKeys(s'.tasks, TaskKey) && Ascending(s'.tasks, TaskKey)
    requires forall i | 0 <= i < |s'.tasks| ::
      && s'.tasks[i].id < s'.nextTaskId
      && HasProject(s, s'.tasks[i].projectId) && HasUser(s, s'.tasks[i].userId) && HasState(s, s'.tasks[i].stateId)
    ensures Valid(s')
  {
    assert KeysUnique(s');
    assert IdsAscend(s');
    assert IdsBelowSequences(s');
    forall i | 0 <= i < |s'.projects|
      ensures HasUser(s', s'.projects[i].managerId) && HasState(s', s'.projects[i].stateId)
    {
      assert HasUser(s, s.projects[i].managerId);
    }
    forall m | m in s'.members ensures HasUser(s', m.0) && HasProject(s', m.1) {
      assert HasProject(s, m.1);
    }
    assert ReferencesResolve(s');
  }

  /** Appending a task with a fresh id whose project, assignee and state exist keeps the store consistent. */
  lemma AppendTaskPreservesValid(s: Store, t: Task)
    requires Valid(s)
    requires t.id == s.nextTaskId && HasProject(s, t.projectId) && HasUser(s, t.userId) && HasState(s, t.stateId)
    ensures Valid(s.(tasks := s.tasks + [t], nextTaskId := s.nextTaskId + 1))
  {
    var withTask := s.(tasks := s.tasks + [t], nextTaskId := s.nextTaskId + 1);
    forall k | k in Keys(s.tasks, TaskKey) ensures k < s.nextTaskId {
      var i :| 0 <= i < |s.tasks| && s.tasks[i].id == k;
    }
    AppendKeepsUnique(s.tasks, TaskKey, t);
    AppendKeepsAscending(s.tasks, TaskKey, t);
    forall i | 0 <= i < |withTask.tasks|
      ensures withTask.tasks[i].id < withTask.nextTaskId
        && HasProject(s, withTask.tasks[i].projectId) && HasUser(s, withTask.tasks[i].userId)
        && HasState(s, withTask.tasks[i].stateId)
    {
      if i < |s.tasks| {
        assert withTask.tasks[i] == s.tasks[i];
      } else {
        assert withTask.tasks[i] == t;
      }
    }
    TaskTableEditPreservesValid(s, withTask);
  }

  /** A successful creation is an append of a well-referenced task followed by the project stamp. */
  lemma CreateTaskAppendsThenStamps(s: Store, dto: CreateTaskDto, projectId: Id, now: nat)
    requires CreateTask(s, dto, projectId, now).Ok?
    ensures var t := CreateTask(s, dto, projectId, now).value.1;
      && t.id == s.nextTaskId && HasProject(s, t.projectId) && HasUser(s, t.userId) && HasState(s, t.stateId)
    ensures var t := CreateTask(s, dto, projectId, now).value.1;
      var withTask := s.(tasks := s.tasks + [t], nextTaskId := s.nextTaskId + 1);
      && Projects.UpdateDateOfModify(withTask, projectId, now).Ok?
      && CreateTask(s, dto, projectId, now).value.0 == Projects.UpdateDateOfModify(withTask, projectId, now).value
  {
  }

  lemma CreateTaskPreservesValid(s: Store, dto: CreateTaskDto, projectId: Id, now: nat)
    requires Valid(s)
    ensures CreateTask(s, dto, projectId, now).Ok? ==> Valid(CreateTask(s, dto, projectId, now).value.0)
  {
    if CreateTask(s, dto, projectId, now).Ok? {
      CreateTaskAppendsThenStamps(s, dto, projectId, now);
      var t := CreateTask(s, dto, projectId, now).value.1;
      var withTask := s.(tasks := s.tasks + [t], nextTaskId := s.nextTaskId + 1);
      AppendTaskPreservesValid(s, t);
      Projects.UpdateDateOfModifyPreservesValid(withTask, projectId, now);
    }
  }

  lemma DeleteTaskPreservesValid(s: Store, projectId: Id, taskId: Id)
    requires Valid(s)
    ensures DeleteTask(s, projectId, taskId).Ok? ==> Valid(DeleteTask(s, projectId, taskId).value.0)
  {
    if DeleteTask(s, projectId, taskId).Ok? {
      RemoveKeepsUnique(s.tasks, TaskKey, taskId);
      RemoveKeepsAscending(s.tasks, TaskKey, taskId);
      DroppingTasksPreservesValid(s, Remove(s.tasks, TaskKey, taskId));
    }
  }

  lemma DeleteTaskInProjectPreservesValid(s: Store, projectId: Id, taskId: Id)
    requires Valid(s)
    ensures DeleteTaskInProject(s, projectId, taskId).Ok? ==> Valid(DeleteTaskInProject(s, projectId, taskId).value.0)
  {
    if DeleteTaskInProject(s, projectId, taskId).Ok? {
      RemoveKeepsUnique(s.tasks, TaskKey, taskId);
      RemoveKeepsAscending(s.tasks, TaskKey, taskId);
      DroppingTasksPreservesValid(s, Remove(s.tasks, TaskKey, taskId));
    }
  }

  /** Keeping only some of the task rows keeps the store consistent. */
  lemma DroppingTasksPreservesValid(s: Store, tasks: seq<Task>)
    requires Valid(s)
    requires UniqueKeys(tasks, TaskKey) && Ascending(tasks, TaskKey)
    requires forall x | x in tasks :: x in s.tasks
    ensures Valid(s.(tasks := tasks))
  {
    var s' := s.(tasks := tasks);
    forall i | 0 <= i < |tasks|
      ensures tasks[i].id < s'.nextTaskId && HasProject(s, tasks[i].projectId) && HasUser(s, tasks[i].userId)
        && HasState(s, tasks[i].stateId)
    {
      assert tasks[i] in tasks;
      var j :| 0 <= j < |s.tasks| && s.tasks[j] == tasks[i];
    }
    TaskTableEditPreservesValid(s, s');
  }

  lemma UpdateStateOfTaskPreservesValid(s: Store, projectId: Id, taskId: Id, state: string)
    requires Valid(s)
    ensures UpdateStateOfTask(s, projectId, taskId, state).Ok? ==>
      Valid(UpdateStateOfTask(s, projectId, taskId, state).value.0)
  {
    var r := UpdateStateOfTask(s, projectId, taskId, state);
    if r.Ok? {
      var (s', t) := r.value;
      var before :| before in s.tasks && before.id == taskId && before.projectId == projectId
        && t == before.(stateId := t.stateId);
      assert s'.tasks == Replace(s.tasks, TaskKey, t);
      ReplaceKeepsUnique(s.tasks, TaskKey, t);
      ReplaceKeepsAscending(s.tasks, TaskKey, t);
      var k :| 0 <= k < |s.tasks| && s.tasks[k] == before;
      var j :| IsFirstMatch(s.states, state, j) && s.states[j].id == t.stateId;
      assert StateKey(s.states[j]) in Keys(s.states, StateKey);
      forall i | 0 <= i < |s'.tasks|
        ensures s'.tasks[i].id < s'.nextTaskId && HasProject(s, s'.tasks[i].projectId) && HasUser(s, s'.tasks[i].userId)
          && HasState(s, s'.tasks[i].stateId)
      {
        if s.tasks[i].id == taskId {
          assert s'.tasks[i] == t;
          assert s.tasks[k].projectId == t.projectId && s.tasks[k].userId == t.userId;
        } else {
          assert s'.tasks[i] == s.tasks[i];
        }
      }
      TaskTableEditPreservesValid(s, s');
    }
  }
}

=== FILE: text.dfy ===
/**
 * ASCII text helpers behind the store's case-insensitive `contains` filter,
 * which the services use to look a state up by part of its name.
 */
module Text {

  /** ASCII lower-casing of one character; every other character is kept. */
  function Lower(c: char): char {
    if 'A' <= c <= 'Z' then (c as int - 'A' as int + 'a' as int) as char else c
  }

  function LowerStr(s: string): (r: string)
    ensures |r| == |s|
    ensures forall i | 0 <= i < |s| :: r[i] == Lower(s[i])
  {
    if |s| == 0 then [] else [Lower(s[0])] + LowerStr(s[1..])
  }

  predicate IsPrefix(p: string, s: string) {
    |p| <= |s| && s[..|p|] == p
  }

  /** `needle` occurs in `hay`, searched from the left. */
  predicate Contains(hay: string, needle: string)
    decreases |hay|
  {
    IsPrefix(needle, hay) || (|hay| > 0 && Contains(hay[1..], needle))
  }

  /** Reference definition of an occurrence: `needle` sits in `hay` at offset `i`. */
  ghost predicate OccursAt(hay: string, needle: string, i: int) {
    0 <= i && i + |needle| <= |hay| && hay[i..i + |needle|] == needle
  }

  /** The store's `contains` with `mode: 'insensitive'`, restricted to ASCII. */
  predicate ContainsIgnoreCase(hay: string, needle: string) {
    Contains(LowerStr(hay), LowerStr(needle))
  }

  lemma {:induction false} ContainsHasOccurrence(hay: string, needle: string)
    requires Contains(hay, needle)
    ensures exists i :: OccursAt(hay, needle, i)
    decreases |hay|
  {
    if IsPrefix(needle, hay) {
      assert OccursAt(hay, needle, 0);
    } else {
      ContainsHasOccurrence(hay[1..], needle);
      var i :| OccursAt(hay[1..], needle, i);
      assert hay[1..][i..i + |needle|] == hay[i + 1..i + 1 + |needle|];
      assert OccursAt(hay, needle, i + 1);
    }
  }

  lemma {:induction false} OccurrenceIsContained(hay: string, needle: string, i: int)
    requires OccursAt(hay, needle, i)
    ensures Contains(hay, needle)
    decreases i
  {
    if i == 0 {
      assert hay[..|needle|] == hay[0..|needle|];
      assert IsPrefix(needle, hay);
    } else {
      assert hay[1..][i - 1..i - 1 + |needle|] == hay[i..i + |needle|];
      OccurrenceIsContained(hay[1..], needle, i - 1);
    }
  }

  /** The recursive search finds exactly the occurrences of the reference definition. */
  lemma ContainsIffOccurs(hay: string, needle: string)
    ensures Contains(hay, needle) <==> exists i :: OccursAt(hay, needle, i)
  {
    if Contains(hay, needle) {
      ContainsHasOccurrence(hay, needle);
    }
    if exists i :: OccursAt(hay, needle, i) {
      var i :| OccursAt(hay, needle, i);
      OccurrenceIsContained(hay, needle, i);
    }
  }

  lemma LowerStrIdempotent(s: string)
    ensures LowerStr(LowerStr(s)) == LowerStr(s)
  {
  }

  /** Only the letters of the query matter, not their case. */
  lemma QueryCaseIrrelevant(hay: string, needle: string)
    ensures ContainsIgnoreCase(hay, LowerStr(needle)) == ContainsIgnoreCase(hay, needle)
  {
    LowerStrIdempotent(needle);
  }

  /** An empty query matches every name. */
  lemma EmptyQueryMatchesAll(hay: string)
    ensures ContainsIgnoreCase(hay, "")
  {
    assert IsPrefix(LowerStr(""), LowerStr(hay));
  }
}

=== FILE: wrappers.dfy ===
/** Failure-compatible wrappers used by every service of the model. */
module Wrappers {

  /** A value that may be absent: the model's stand-in for `null`. */
  datatype Option<+T> = None | Some(value: T)

  /** Either a value or the exception the service would throw. */
  datatype Result<+T, +E> = Ok(value: T) | Err(error: E) {

    predicate IsFailure() {
      Err?
    }

    function PropagateFailure<U>(): Result<U, E>
      requires Err?
    {
      Err(error)
    }

    function Extract(): T
      requires Ok?
    {
      value
    }
  }
}
